=== FILE: README.md ===
# CHELSA loader, modelled in Dafny

`chelsa_loader.py` fetches CHELSA climate rasters. A fixed catalog
(`SCHEME`) has twelve datasets. Each one gives:

- a file-name template;
- a directory template, appended to a fixed base URL;
- one or more list fields (`month`, `model`, `year`, `emission`).

`main` walks the catalog. For each entry it forms every combination of the
entry's list fields with `cartesian_helper`. For each combination it:

- fills both templates;
- joins the base URL, the directory and the file name into a URL;
- computes a local folder with `get_output_folder`, which drops the path
  segments of placeholders the combination does not bind;
- calls `download`.

`download` names the local file after the URL's last segment. It compares
the size of an existing local file with the server's `Content-length`. From
that it decides whether to keep the file, delete it and fetch again, or
fetch it for the first time. `main` counts the files.

This project models the pure part of that program:

- the string operations it relies on: `str.replace`, `posixpath.join`,
  `split('/')[-1]`, `int()`, and `str.format` restricted to `{name}` fields;
- the catalog itself;
- the product enumeration;
- folder resolution;
- URL and folder composition;
- the counting loop;
- the decision `download` takes.

The modules are:

- `Wrappers` (`Option`, `Result`).
- `PyStr`: the Python string functions.
- `Templates`: `re.findall` over `{name}` tokens and `str.format`. Templates
  can also be built from literal pieces and named holes.
- `Cartesian`: `cartesian_helper` as a recursive product. It is proved
  equal to a mixed-radix odometer.
- `OutputFolder`: `get_output_folder`, proved equal to a reference layout.
- `Catalog`: `main`'s axis selection, target construction and counting. It
  works over any catalog.
- `Chelsa`: the twelve entries of `SCHEME`, and what `main` does with them.
- `Download`: the size check and what it removes or writes.

An existing local file is evidently meant to be kept when the server
reports no size. The code instead deletes it. A missing or non-numeric
`Content-length` counts as 0, and 0 differs from any non-empty
local file by more than a fifth. So the code deletes the file and then
fetches nothing. The model follows the code: `Download.Download`. The
intended behaviour is `Download.SafeDownload`. See "Findings".

## Model

| member | source | states |
|---|---|---|
| PyStr.Replace | chelsa_loader.py:130 | `str.replace`: a string in which the pattern never occurs comes back unchanged |
| PyStr.ReplaceSkipsPrefix | chelsa_loader.py:130 | a prefix in which no match can start is copied through unchanged |
| PyStr.Join | chelsa_loader.py:139 | `os.path.join`: the second part always ends the result; an absolute second part replaces the first; otherwise the first part is kept as a prefix |
| PyStr.LastSegment | chelsa_loader.py:137 | `url.split('/')[-1]` has no `/`, and what precedes it in the URL is a `/` |
| PyStr.LastSegmentIsSuffix | chelsa_loader.py:137 | the file name is a suffix of the URL |
| PyStr.LastSegmentOfJoin | chelsa_loader.py:137-139 | the last segment of `join(a, b)` is `b` when `b` holds no `/`: the name `download` derives is the file name that was joined |
| PyStr.ZeroPad2 | chelsa_loader.py:19 | `'{:02d}'.format(n)` is digits that denote `n`, at least two of them, and exactly two below 100 |
| PyStr.Decimal | chelsa_loader.py:44 | `'{}'.format(n)` is digits without a leading zero |
| PyStr.StripLeft | chelsa_loader.py:147 | `int()` ignores leading whitespace: exactly a whitespace prefix is removed |
| PyStr.StripRight | chelsa_loader.py:147 | exactly a whitespace suffix is removed |
| PyStr.ParseInt | chelsa_loader.py:147 | `int()` reads a value only from a string with non-whitespace content, and a negative value only when that content starts with `-` |
| PyStr.ParseIgnoresSpace | chelsa_loader.py:147 | `int()` gives the same outcome, value or error, when one whitespace character is added at the start, or at the end |
| PyStr.ParseRejects | chelsa_loader.py:146-149 | `int()` raises `ValueError` on content holding any character other than a digit, `_` or a sign, so such a `Content-length` reads as 0 |
| PyStr.SeparatorNotSkipped | chelsa_loader.py:146-149 | `int()` does not skip the separator U+001C that `str.strip()` would remove: `'\x1c' + str(n)` raises `ValueError`, so such a `Content-length` reads as 0 |
| PyStr.ParseDigits | chelsa_loader.py:147 | a digit string, zero-padded or with single underscores between digits, is read as the number its digits denote |
| PyStr.ParseSigned | chelsa_loader.py:147 | after a `+` or `-`, such a digit string is read as its value or its negation |
| PyStr.ParseNegativeDecimal | chelsa_loader.py:147 | `int('-' + str(n)) == -n` |
| PyStr.ParseDecimal | chelsa_loader.py:145-149 | `int(str(n)) == n`: a decimal `Content-length` is read exactly |
| Templates.FindFields | chelsa_loader.py:127 | `re.findall(r'\{([a-zA-Z_]+)\}')` reports only valid names |
| Templates.Format | chelsa_loader.py:132 | `format(**vars)` raises a missing-key error only for a name that occurs in the template and is unbound |
| Templates.FormatOkIff | chelsa_loader.py:132 | `format` succeeds if and only if the template is well formed and every name `findall` reports is bound |
| Templates.FormatIgnoresOtherNames | chelsa_loader.py:132 | two keyword maps that agree on the template's names format identically |
| Templates.FormatLeavesNoBrace | chelsa_loader.py:132 | with brace-free values, a successful `format` leaves no brace |
| Templates.RenderScan | chelsa_loader.py:193-194 | for a template built from literal text and `{name}` holes, `findall` returns the holes, and `format` substitutes every bound hole in place |
| Cartesian.Product | chelsa_loader.py:113-119 | `cartesian_helper` yields as many dictionaries as the product of the list lengths |
| Cartesian.ProductBinds | chelsa_loader.py:117-119 | every yielded dictionary has exactly the input keys, each bound to one of that key's values |
| Cartesian.ProductIsOdometer | chelsa_loader.py:118 | the k-th dictionary is the k-th reading of a mixed-radix odometer whose last key varies fastest (`itertools.product` order) |
| Cartesian.OdometerStep | chelsa_loader.py:118 | consecutive dictionaries are consecutive odometer readings |
| Cartesian.DigitsOfRank | chelsa_loader.py:118 | odometer readings and positions correspond one to one, so nothing is yielded twice or skipped |
| Cartesian.Rank | chelsa_loader.py:118 | every in-range reading is the position of some yielded dictionary |
| Cartesian.Digits | chelsa_loader.py:118 | every position is an in-range reading, and ranking it gives the position back |
| Cartesian.SelectBinds | chelsa_loader.py:119 | a reading binds each key to the value at that reading's index |
| Cartesian.CountZeroIff | chelsa_loader.py:118 | nothing is yielded if and only if some list is empty |
| Cartesian.DigitsOfZero | chelsa_loader.py:118 | the first dictionary takes the first value of every list |
| Cartesian.RankOfMax | chelsa_loader.py:118 | the last dictionary takes the last value of every list, and only it does |
| OutputFolder.Collapse | chelsa_loader.py:127-131 | the loop of `get_output_folder` keeps for rendering exactly the names that have a non-`None` value |
| OutputFolder.GetOutputFolderFor | chelsa_loader.py:122-132 | for any template, when every placeholder `findall` reports has a value, nothing is collapsed and the result is plain `format` of the template |
| OutputFolder.CollapseSegments | chelsa_loader.py:127-131 | after the loop the template is the root followed by the segments of the supplied names only |
| OutputFolder.ResolvesToExpected | chelsa_loader.py:122-132 | for any brace-free root and distinct one-per-segment names, resolution gives the reference layout |
| OutputFolder.GetOutputFolder | chelsa_loader.py:122-132 | with the fixed template, `get_output_folder` never raises and gives the reference layout |
| OutputFolder.PresentPlaceholders | chelsa_loader.py:122-132 | the folder is the root, then one `/value` per supplied placeholder in the order folder_name, model, year, emission, then `/` |
| OutputFolder.NoEmptySegment | chelsa_loader.py:129-130 | dropping absent segments never leaves `//` when the values are non-empty and slash-free |
| OutputFolder.NoPlaceholderLeft | chelsa_loader.py:132 | no `{...}` survives in the folder when the values have no braces |
| OutputFolder.IgnoresOtherArguments | chelsa_loader.py:128-131 | only the four placeholders matter; `month`, any other argument, and absent versus `None` make no difference |
| OutputFolder.AllSupplied | chelsa_loader.py:132 | with all four placeholders supplied, the folder is plain `format` of the template |
| OutputFolder.OnlyFolderName | chelsa_loader.py:122-132 | `get_output_folder(folder_name=n)` is `/home/dmitry/bin/chelsa/n/` |
| OutputFolder.FolderNameAndModel | chelsa_loader.py:122-132 | with a name and a model it is `/home/dmitry/bin/chelsa/n/m/` |
| Catalog.Axes | chelsa_loader.py:185-188 | `to_permute` holds exactly the list-valued fields of the entry |
| Catalog.AxesKeyed | chelsa_loader.py:185-188 | the list fields of a dictionary entry have distinct names |
| Catalog.Lookup | chelsa_loader.py:193-194 | `item[key]` gives a field the entry has, and fails only when no field has that key |
| Catalog.Expand | chelsa_loader.py:193-194 | `item[key].format(**vars)` succeeds if and only if the field is text whose placeholders are all bound; an error names the field `key` |
| Catalog.TargetFor | chelsa_loader.py:190-195 | one combination succeeds if and only if it does not rebind `folder_name` and both templates can be filled; rebinding `folder_name` is the error raised first; the folder is the root, the entry name, then the model, year and emission it binds; the URL ends in the filled file template |
| Catalog.LookupKeyed | chelsa_loader.py:193-194 | in an entry with distinct keys, `item[key]` finds the value stored under the key |
| Catalog.FolderLayout | chelsa_loader.py:191 | the folder of a combination is the root, the entry name, then the model, year and emission it binds |
| Catalog.Collect | chelsa_loader.py:190-198 | the inner loop succeeds if and only if every combination does; its values are theirs, in order; otherwise the first failure is raised |
| Catalog.EntryTargets | chelsa_loader.py:190-198 | an entry that plans without error plans one download per combination |
| Catalog.Total | chelsa_loader.py:183-198 | the count `main` accumulates is at least the number of files of any single entry |
| Catalog.TotalZeroIff | chelsa_loader.py:183-199 | `main` prints 0 if and only if no entry has a combination |
| Catalog.Flatten | chelsa_loader.py:184-198 | the outer loop succeeds if and only if every entry does |
| Catalog.Run | chelsa_loader.py:184-198 | planning raises nothing if and only if every entry plans without error |
| Catalog.RunCount | chelsa_loader.py:183-199 | a run without error plans exactly `total` downloads |
| Catalog.RunStops | chelsa_loader.py:184-198 | the first entry that raises decides the outcome of `main`; later entries are never reached |
| Catalog.RunStep | chelsa_loader.py:184-198 | an entry that plans without error appends its downloads, in order, to those before it |
| Catalog.CollectSteps | chelsa_loader.py:190-198 | the inner loop as a loop: it computes the planned downloads and their count |
| Catalog.PlanEntry | chelsa_loader.py:190-198 | one entry's loop returns its downloads, one per combination, and counts them |
| Catalog.Plan | chelsa_loader.py:182-199 | `main` as nested loops: the downloads it plans, in order, and the `total` it prints, which is the sum of the entries' product sizes |
| Catalog.ConsistentIff | chelsa_loader.py:184-198 | an entry with at least one combination plans without error if and only if its templates use only its list fields and `folder_name` is not one of them |
| Catalog.ConsistentPlans | chelsa_loader.py:184-198 | a consistent entry plans one download per combination |
| Chelsa.BuildAxes | chelsa_loader.py:185-188 | the list fields `main` selects from a catalog entry are the entry's lists, in order |
| Chelsa.BuildTarget | chelsa_loader.py:190-195 | a combination of a catalog entry targets `get_output_folder(folder_name=name, **vars)` and `join(BASE_URL, directory, file)` |
| Chelsa.FileNameOfTarget | chelsa_loader.py:192-195 | the file name `download` derives (`split('/')[-1]`) from a planned URL is the filled file template |
| Chelsa.SchemeBuilt | chelsa_loader.py:16-109 | every catalog entry's templates use only its list fields; names and values hold no `/`; directories are relative |
| Chelsa.AxesOfFields | chelsa_loader.py:185-188 | the list fields `main` selects from an entry laid out as its list fields are exactly those lists, in order |
| Chelsa.AxesCounts | chelsa_loader.py:16-109 | 12 months; 12 months by 3 models; 2 periods by 4 scenarios by 12 months by 3 models |
| Chelsa.SchemeFiles | chelsa_loader.py:16-109 | each entry asks for 12, 36 or 288 files by family |
| Chelsa.SchemeTotal | chelsa_loader.py:16-109 | the catalog asks for 1344 files |
| Chelsa.SchemePlans | chelsa_loader.py:182-199 | planning over the catalog raises nothing, and `main` prints 1344 |
| Chelsa.PlannedTarget | chelsa_loader.py:190-195 | the k-th planned download of an entry binds the k-th odometer reading; its folder drops the placeholders the entry lacks; its URL joins the filled templates onto `BASE_URL`; it saves under the filled file name |
| Chelsa.FamilyKeys | chelsa_loader.py:16-109 | the three families list month; month and model; year, emission, month and model |
| Chelsa.MonthlyFolder | chelsa_loader.py:17-38 | a current climatology saves every month directly under `/home/dmitry/bin/chelsa/<name>/` |
| Chelsa.ModelFolder | chelsa_loader.py:42-68 | a glacial dataset saves under `<name>/<model>/` |
| Chelsa.ProjectionFolder | chelsa_loader.py:72-109 | a projection saves under `<name>/<model>/<year>/<emission>/`, in template order and not field order |
| Chelsa.CurrentUrl | chelsa_loader.py:192-195 | a current climatology's URL is the base URL, the directory, a `/` unless the directory ends in one, and the file name |
| Chelsa.MinTempUrl | chelsa_loader.py:22-26 | the minimum temperature directory lacks its trailing `/`, and `join` still puts one before the file name |
| Download.RemoteSizeOfDecimal | chelsa_loader.py:145-149 | a decimal `Content-length` is read as its value |
| Download.RemoteSize | chelsa_loader.py:145-149 | a non-zero size is what `int()` reads from a `Content-length` header that is present; absent or unreadable headers give 0 |
| Download.Decide | chelsa_loader.py:151-163 | keep if and only if the local file is non-empty and the reported size is within a fifth of it; fetch if and only if there are no local bytes; replace otherwise |
| Download.Download | chelsa_loader.py:137-179 | saves under the URL's last segment; removes if and only if a non-empty local file is more than a fifth off; writes if and only if the run is real, the reported size is non-zero and the file is not kept |
| Download.CompleteFileKept | chelsa_loader.py:151-163 | a second call after a complete download removes and writes nothing |
| Download.MissingFileFetched | chelsa_loader.py:158-177 | with no local file and a positive size, a real run fetches and removes nothing |
| Download.ZeroNeverFetched | chelsa_loader.py:166 | a reported size of 0 is never fetched |
| Download.SavedPath | chelsa_loader.py:137-139 | under a folder ending in `/`, the file is saved at folder plus file name |
| Download.DryRunRemovesFile | chelsa_loader.py:151-157 | as written, a dry run over a file more than a fifth smaller than reported deletes it |
| Download.MissingLengthRemovesFile | chelsa_loader.py:145-158 | as written, a missing or non-integer `Content-length` deletes any non-empty file and fetches nothing, on a dry run or a real one |
| Download.ReportedSize | chelsa_loader.py:145-149 | the size the server reports, when it reports one, agrees with what `download` reads |
| Download.SafeDownload | chelsa_loader.py:151-179 | corrected: a dry run removes and writes nothing, an unreported size keeps an existing file, and the path is unchanged |
| Download.SafeAgrees | chelsa_loader.py:151-179 | on a real run with a reported size, the corrected download does exactly what the original does |
| Download.SafeReplaces | chelsa_loader.py:151-177 | the corrected download still replaces a file more than a fifth off on a real run |
| Download.PlannedDownload | chelsa_loader.py:191-197 | the file `main` hands to `download` lands at the planned folder plus the filled file template |

## Left out

- The HTTP request, `Content-length` lookup (case-insensitive in `requests`), streaming, `tqdm`, `os.makedirs`, `os.remove` and every `print`: the local size and the header come in as parameters, and an `Action` records what would be removed or written.
- Download.Decide: `0.2 * file_size` is a binary float; the model compares `5 * |remote - local| > local` exactly. The two agree for local sizes below about 2^52 bytes: at the boundary the difference is exactly `f/5`, an integer the float product cannot fall below because the double nearest 0.2 exceeds 1/5, so both keep the file; elsewhere the integer difference is at least 1/5 away from `f/5`, far more than the rounding error. Larger sizes are not modelled.
- Download.Download: does not model the bytes written; the chunk loop and its progress counter are left out, as is a failed `os.remove`, which the code ignores.
- `main` calls `download` with `dry_run=False`; the model keeps `dryRun` as a parameter because `download`'s own default is a dry run.
- Templates.Format: only `{name}` fields whose name is letters and underscores are modelled. Any other field name (such as `{a1}` or `{a-b}`, which Python looks up as keys), any conversion (`{a!r}`), escaped braces, format specs, attribute or index access and positional fields are reported as `Malformed`. The templates of this program use none of them.
- PyStr.ParseInt: only whitespace below U+0080 (space, `\t`, `\n`, `\v`, `\f`, `\r`) and ASCII digits; Python's `int()` also accepts Unicode whitespace and digits above U+007F. CPython's limit on the length of decimal strings (4300 digits by default since 3.11, set by `sys.set_int_max_str_digits`), beyond which `int()` raises `ValueError` and `download` reads the size as 0, is not modelled.
- PyStr.ParseDigits: states the value for digit strings of any length; past CPython's default limit of 4300 digits `int()` raises instead.
- PyStr.ParseSigned: the same 4300-digit limit is not modelled.
- PyStr.ParseNegativeDecimal: the same 4300-digit limit is not modelled.
- PyStr.ParseDecimal: the same 4300-digit limit is not modelled; `int(str(n)) == n` holds on CPython only for `n` below 10^4300 by default.
- Download.RemoteSizeOfDecimal: a `Content-length` of more than 4300 digits reads as 0 on CPython 3.11 and later by default; the model reads its value.
- PyStr.Replace: requires a non-empty pattern; Python's empty-pattern case never occurs here.
- Catalog: an entry is a list of fields; a Python dictionary cannot hold a key twice, so the lemmas about the catalog assume distinct keys (`DistinctKeys`).
- Exceptions raised by the network or the file system, and the module-level `BUFFER_SIZE`, are not part of this model.

## Findings

| source | as written | input that shows it | evidently intended | confidence | as-written member | corrected member |
|---|---|---|---|---|---|---|
| chelsa_loader.py:151-157 | the size check deletes the local file before `dry_run` is consulted | a 100-byte local file, `Content-length: 300`, `dry_run=True`: the file is removed | a dry run ("Fake loading") leaves the disk untouched | medium; not executed | Download.DryRunRemovesFile | Download.SafeDownload |
| chelsa_loader.py:145-158 | a missing or non-numeric `Content-length` reads as 0, which is more than a fifth away from any non-empty local size, so the file is deleted; `if remote_file_size:` then fetches nothing | a 100-byte local file and no `Content-length` header: the file is removed and nothing is written | an existing file is kept when the server reports no size | medium; not executed | Download.MissingLengthRemovesFile | Download.SafeDownload |

=== FILE: cartesian.dfy ===
/** `cartesian_helper`: the cross product of an ordered dictionary of axes,
    one assignment per combination, as `itertools.product` enumerates them. */
module Cartesian {

  /** The number of combinations: the product of the axis lengths. */
  function Count<K(==), V>(axes: seq<(K, seq<V>)>): nat
  {
    if |axes| == 0 then 1 else |axes[0].1| * Count(axes[1..])
  }

  /** No two pairs share a name, as for the keys of a dictionary. */
  predicate DistinctKeys<K(==), V>(pairs: seq<(K, V)>)
  {
    forall i, j :: 0 <= i < j < |pairs| ==> pairs[i].0 != pairs[j].0
  }

  function KeySet<K(==), V>(axes: seq<(K, seq<V>)>): set<K>
  {
    set i | 0 <= i < |axes| :: axes[i].0
  }

  /** Each assignment of `rest`, with `key` bound to `v`. */
  function Extend<K(==), V>(key: K, v: V, rest: seq<map<K, V>>): (r: seq<map<K, V>>)
    ensures |r| == |rest|
  {
    seq(|rest|, j requires 0 <= j < |rest| => rest[j][key := v])
  }

  /** The blocks `Extend(key, vs[0], rest)`, `Extend(key, vs[1], rest)`, ...
      one after the other. */
  function Spread<K(==), V>(key: K, vs: seq<V>, rest: seq<map<K, V>>): (r: seq<map<K, V>>)
    ensures |r| == |vs| * |rest|
  {
    if |vs| == 0 then [] else Extend(key, vs[0], rest) + Spread(key, vs[1..], rest)
  }

  /** `list(cartesian_helper(dct))` for `dct` given as its items in order:
      the first axis varies slowest. With no axes there is one, empty,
      combination. */
  function Product<K(==), V>(axes: seq<(K, seq<V>)>): (r: seq<map<K, V>>)
    ensures |r| == Count(axes)
  {
    if |axes| == 0 then [map[]]
    else Spread(axes[0].0, axes[0].1, Product(axes[1..]))
  }

  /** A reading of the odometer: one position per axis. */
  predicate InRange<K(==), V>(axes: seq<(K, seq<V>)>, d: seq<nat>)
  {
    |d| == |axes| && forall i :: 0 <= i < |d| ==> d[i] < |axes[i].1|
  }

  /** The assignment an odometer reading selects. */
  function Select<K(==), V>(axes: seq<(K, seq<V>)>, d: seq<nat>): map<K, V>
    requires InRange(axes, d)
  {
    if |axes| == 0 then map[]
    else Select(axes[1..], d[1..])[axes[0].0 := axes[0].1[d[0]]]
  }

  lemma MulStep(a: nat, b: nat, c: nat, n: nat)
    requires a < n && b < c
    ensures a * c + b < n * c
  {
    assert a * c + b < a * c + c == (a + 1) * c;
    assert (a + 1) * c <= n * c;
  }

  /** The position of a reading in the enumeration: mixed radix, last axis
      the least significant digit. */
  function Rank<K(==), V>(axes: seq<(K, seq<V>)>, d: seq<nat>): (k: nat)
    requires InRange(axes, d)
    ensures k < Count(axes)
  {
    if |axes| == 0 then 0
    else
      var r := Rank(axes[1..], d[1..]);
      MulStep(d[0], r, Count(axes[1..]), |axes[0].1|);
      d[0] * Count(axes[1..]) + r
  }

  lemma DivBounds(k: nat, n: nat, c: nat)
    requires k < n * c
    ensures c > 0 && k / c < n && k % c < c
  {
  }

  lemma DivRecombine(k: nat, c: nat)
    requires c > 0
    ensures (k / c) * c + k % c == k
  {
  }

  /** The reading at position `k` of the enumeration. */
  function Digits<K(==), V>(axes: seq<(K, seq<V>)>, k: nat): (d: seq<nat>)
    requires k < Count(axes)
    ensures InRange(axes, d) && Rank(axes, d) == k
  {
    if |axes| == 0 then []
    else
      var c := Count(axes[1..]);
      DivBounds(k, |axes[0].1|, c);
      var t := Digits(axes[1..], k % c);
      var d := [k / c] + t;
      assert d[1..] == t;
      assert InRange(axes, d) by {
        forall i | 0 <= i < |d| ensures d[i] < |axes[i].1| {
          if i > 0 { assert d[i] == t[i - 1] && axes[i] == axes[1..][i - 1]; }
        }
      }
      assert Rank(axes, d) == k by {
        assert Rank(axes, d) == (k / c) * c + k % c;
        DivRecombine(k, c);
      }
      d
  }

  /** Readings and positions correspond one to one. */
  lemma {:induction false} DigitsOfRank<K, V>(axes: seq<(K, seq<V>)>, d: seq<nat>)
    requires InRange(axes, d)
    ensures Digits(axes, Rank(axes, d)) == d
  {
    if |axes| > 0 {
      var c := Count(axes[1..]);
      var r := Rank(axes[1..], d[1..]);
      var k := d[0] * c + r;
      assert k / c == d[0] && k % c == r by {
        assert c > 0;
        UniqueDivision(k, c, d[0], r);
      }
      DigitsOfRank(axes[1..], d[1..]);
    }
  }

  lemma UniqueDivision(k: nat, c: nat, q: nat, r: nat)
    requires c > 0 && r < c && k == q * c + r
    ensures k / c == q && k % c == r
  {
    var q', r' := k / c, k % c;
    assert k == q' * c + r';
    assert (q - q') * c == r' - r;
    if q - q' >= 1 {
      MulAtLeast(q - q', c);
    } else if q' - q >= 1 {
      MulAtLeast(q' - q, c);
    }
  }

  lemma MulAtLeast(a: int, c: int)
    requires a >= 1 && c >= 0
    ensures a * c >= c
  {
    assert a * c == (a - 1) * c + c;
  }

  lemma {:induction false} SpreadAt<K, V>(key: K, vs: seq<V>, rest: seq<map<K, V>>, i: nat, j: nat)
    requires i < |vs| && j < |rest|
    ensures i * |rest| + j < |Spread(key, vs, rest)|
    ensures Spread(key, vs, rest)[i * |rest| + j] == rest[j][key := vs[i]]
  {
    MulStep(i, j, |rest|, |vs|);
    if i > 0 {
      SpreadAt(key, vs[1..], rest, i - 1, j);
      assert i * |rest| + j == |rest| + ((i - 1) * |rest| + j);
    }
  }

  /** Every combination is enumerated, at the position its rank gives. */
  lemma {:induction false} ProductAt<K, V>(axes: seq<(K, seq<V>)>, d: seq<nat>)
    requires InRange(axes, d)
    ensures Product(axes)[Rank(axes, d)] == Select(axes, d)
  {
    if |axes| > 0 {
      ProductAt(axes[1..], d[1..]);
      SpreadAt(axes[0].0, axes[0].1, Product(axes[1..]), d[0], Rank(axes[1..], d[1..]));
    }
  }

  /** The `k`-th combination is the one the `k`-th odometer reading selects:
      position `k` written in mixed radix, the last axis varying fastest. */
  lemma ProductIsOdometer<K, V>(axes: seq<(K, seq<V>)>, k: nat)
    requires k < Count(axes)
    ensures Product(axes)[k] == Select(axes, Digits(axes, k))
  {
    ProductAt(axes, Digits(axes, k));
  }

  /** The combination a reading selects binds exactly the axis names, each
      to a value drawn from that axis at the reading's position. */
  lemma {:induction false} SelectBinds<K, V>(axes: seq<(K, seq<V>)>, d: seq<nat>)
    requires InRange(axes, d) && DistinctKeys(axes)
    ensures Select(axes, d).Keys == KeySet(axes)
    ensures forall i :: 0 <= i < |axes| ==> Select(axes, d)[axes[i].0] == axes[i].1[d[i]]
  {
    if |axes| > 0 {
      assert DistinctKeys(axes[1..]) by {
        forall i, j | 0 <= i < j < |axes[1..]| ensures axes[1..][i].0 != axes[1..][j].0 {
          assert axes[1..][i] == axes[i + 1] && axes[1..][j] == axes[j + 1];
        }
      }
      SelectBinds(axes[1..], d[1..]);
      assert KeySet(axes) == {axes[0].0} + KeySet(axes[1..]) by {
        forall x | x in KeySet(axes) ensures x in {axes[0].0} + KeySet(axes[1..]) {
          var i :| 0 <= i < |axes| && axes[i].0 == x;
          if i > 0 { assert axes[1..][i - 1] == axes[i]; }
        }
        forall x | x in KeySet(axes[1..]) ensures x in KeySet(axes) {
          var i :| 0 <= i < |axes[1..]| && axes[1..][i].0 == x;
          assert axes[i + 1] == axes[1..][i];
        }
      }
      forall i | 0 <= i < |axes| ensures Select(axes, d)[axes[i].0] == axes[i].1[d[i]] {
        if i > 0 {
          assert axes[1..][i - 1] == axes[i];
        }
      }
    }
  }

  /** What `cartesian_helper` yields: every dictionary has exactly the input
      keys, and each key is bound to one of that key's values. */
  lemma ProductBinds<K, V>(axes: seq<(K, seq<V>)>, k: nat)
    requires DistinctKeys(axes) && k < Count(axes)
    ensures Product(axes)[k].Keys == KeySet(axes)
    ensures forall i :: 0 <= i < |axes| ==> Product(axes)[k][axes[i].0] in axes[i].1
  {
    ProductIsOdometer(axes, k);
    SelectBinds(axes, Digits(axes, k));
  }

  /** Nothing is yielded exactly when some axis has no values. */
  lemma {:induction false} CountZeroIff<K, V>(axes: seq<(K, seq<V>)>)
    ensures Count(axes) == 0 <==> exists i :: 0 <= i < |axes| && |axes[i].1| == 0
  {
    if |axes| > 0 {
      CountZeroIff(axes[1..]);
      if Count(axes[1..]) == 0 {
        var i :| 0 <= i < |axes[1..]| && |axes[1..][i].1| == 0;
        assert |axes[i + 1].1| == 0;
      }
      if exists i :: 0 <= i < |axes| && |axes[i].1| == 0 {
        var i :| 0 <= i < |axes| && |axes[i].1| == 0;
        if i > 0 { assert axes[1..][i - 1] == axes[i]; }
      }
    }
  }

  /** Every axis shows its last value. */
  predicate AtMax<K(==), V>(axes: seq<(K, seq<V>)>, d: seq<nat>)
    requires |d| == |axes|
  {
    forall i :: 0 <= i < |d| ==> d[i] + 1 == |axes[i].1|
  }

  function Zeros(n: nat): (z: seq<nat>)
    ensures |z| == n && forall i :: 0 <= i < n ==> z[i] == 0
  {
    if n == 0 then [] else [0] + Zeros(n - 1)
  }

  /** The odometer's next reading: the last axis advances; an axis that has
      shown its last value returns to its first and carries into the axis
      before it. */
  function Next<K(==), V>(axes: seq<(K, seq<V>)>, d: seq<nat>): (n: seq<nat>)
    requires |d| == |axes|
    ensures |n| == |d|
  {
    if |axes| == 0 then []
    else if AtMax(axes[1..], d[1..]) then [d[0] + 1] + Zeros(|axes| - 1)
    else [d[0]] + Next(axes[1..], d[1..])
  }

  lemma TopReading(d0: nat, r: nat, n: nat, c: nat)
    requires d0 < n && r < c
    ensures d0 * c + r + 1 == n * c <==> d0 + 1 == n && r + 1 == c
  {
    if d0 + 1 == n {
      assert n * c == d0 * c + c;
    } else {
      MulStep(d0 + 1, r, c, n);
      assert (d0 + 1) * c == d0 * c + c;
    }
  }

  lemma {:induction false} RankOfMax<K, V>(axes: seq<(K, seq<V>)>, d: seq<nat>)
    requires InRange(axes, d)
    ensures AtMax(axes, d) <==> Rank(axes, d) + 1 == Count(axes)
  {
    if |axes| > 0 {
      var c := Count(axes[1..]);
      var r := Rank(axes[1..], d[1..]);
      RankOfMax(axes[1..], d[1..]);
      assert AtMax(axes, d) <==> d[0] + 1 == |axes[0].1| && AtMax(axes[1..], d[1..]) by {
        if AtMax(axes, d) {
          forall i | 0 <= i < |d[1..]| ensures d[1..][i] + 1 == |axes[1..][i].1| {
            assert d[1..][i] == d[i + 1] && axes[1..][i] == axes[i + 1];
          }
        }
        if d[0] + 1 == |axes[0].1| && AtMax(axes[1..], d[1..]) {
          forall i | 0 <= i < |d| ensures d[i] + 1 == |axes[i].1| {
            if i > 0 { assert d[1..][i - 1] == d[i] && axes[1..][i - 1] == axes[i]; }
          }
        }
      }
      TopReading(d[0], r, |axes[0].1|, c);
    }
  }

  lemma {:induction false} DigitsOfZero<K, V>(axes: seq<(K, seq<V>)>)
    requires 0 < Count(axes)
    ensures Digits(axes, 0) == Zeros(|axes|)
  {
    if |axes| > 0 {
      var c := Count(axes[1..]);
      DivBounds(0, |axes[0].1|, c);
      DigitsOfZero(axes[1..]);
    }
  }

  lemma CarryStep(k: nat, c: nat)
    requires c > 0
    ensures k % c + 1 == c ==> (k + 1) / c == k / c + 1 && (k + 1) % c == 0
    ensures k % c + 1 < c ==> (k + 1) / c == k / c && (k + 1) % c == k % c + 1
  {
    DivRecombine(k, c);
    var q, r := k / c, k % c;
    if r + 1 == c {
      assert k + 1 == (q + 1) * c + 0;
      UniqueDivision(k + 1, c, q + 1, 0);
    } else {
      UniqueDivision(k + 1, c, q, r + 1);
    }
  }

  /** Consecutive combinations are consecutive odometer readings: the
      enumeration is in odometer order with the last key varying fastest. */
  lemma {:induction false} OdometerStep<K, V>(axes: seq<(K, seq<V>)>, k: nat)
    requires k + 1 < Count(axes)
    ensures Digits(axes, k + 1) == Next(axes, Digits(axes, k))
  {
    if |axes| > 0 {
      var c := Count(axes[1..]);
      DivBounds(k + 1, |axes[0].1|, c);
      CarryStep(k, c);
      var r := k % c;
      var d := Digits(axes, k);
      assert d[1..] == Digits(axes[1..], r);
      RankOfMax(axes[1..], d[1..]);
      if r + 1 == c {
        DigitsOfZero(axes[1..]);
      } else {
        OdometerStep(axes[1..], r);
      }
    }
  }
}

=== FILE: catalog.dfy ===
/** The download catalog `SCHEME` and the planning loop of `main`: which
    fields of an entry are permuted, and the output folder and URL composed
    for each combination. */
module Catalog {
  import opened Wrappers
  import opened PyStr
  import opened Templates
  import opened Cartesian
  import OutputFolder

  /** `BASE_URL`. */
  const BaseUrl := "https://www.wsl.ch/lud/chelsa/data/"

  /** A value in a catalog entry: a string, or a list `main` iterates over. */
  datatype Field = Text(text: string) | Values(items: seq<string>)

  /** A catalog entry: its key, which is also its folder name, and its fields
      in declaration order, as the dictionary literal keeps them. */
  datatype Entry = Entry(name: string, fields: seq<(string, Field)>)

  /** What makes one iteration of `main` raise. */
  datatype Error =
    | DuplicateArgument(name: string)          // `folder_name` given twice to `get_output_folder`
    | MissingField(key: string)                // `item[key]` raises `KeyError`
    | NotText(key: string)                     // a list has no `format`
    | BadTemplate(key: string, reason: FormatError)

  /** One planned download: the folder and the full URL. */
  datatype Target = Target(folder: string, url: string)

  /** The dictionary `to_permute`: the list-valued fields, in order. */
  function Axes(fields: seq<(string, Field)>): (r: seq<(string, seq<string>)>)
    ensures forall k, vs :: (k, vs) in r <==> (k, Values(vs)) in fields
  {
    if |fields| == 0 then []
    else
      assert forall f :: f in fields <==> f == fields[0] || f in fields[1..];
      (if fields[0].1.Values? then [(fields[0].0, fields[0].1.items)] else []) + Axes(fields[1..])
  }

  lemma {:induction false} AxesAppend(a: seq<(string, Field)>, b: seq<(string, Field)>)
    ensures Axes(a + b) == Axes(a) + Axes(b)
  {
    if |a| > 0 {
      assert (a + b)[1..] == a[1..] + b;
      AxesAppend(a[1..], b);
    } else {
      assert a + b == b;
    }
  }

  /** The axes of a keyed entry have distinct names, so their product binds
      every name exactly once. */
  lemma {:induction false} AxesKeyed(fields: seq<(string, Field)>)
    requires DistinctKeys(fields)
    ensures DistinctKeys(Axes(fields))
  {
    if |fields| > 0 {
      var rest := fields[1..];
      assert DistinctKeys(rest) by {
        forall i, j | 0 <= i < j < |rest| ensures rest[i].0 != rest[j].0 {
          assert rest[i] == fields[i + 1] && rest[j] == fields[j + 1];
        }
      }
      AxesKeyed(rest);
      var ax := Axes(rest);
      forall j | 0 <= j < |ax| ensures ax[j].0 != fields[0].0 {
        assert (ax[j].0, ax[j].1) in ax;
        var m :| 0 <= m < |rest| && rest[m] == (ax[j].0, Values(ax[j].1));
        assert rest[m] == fields[m + 1];
      }
    }
  }

  /** `item[key]`. */
  function Lookup(fields: seq<(string, Field)>, key: string): (r: Option<Field>)
    ensures r.Some? ==> (key, r.value) in fields
    ensures r.None? ==> forall f :: f in fields ==> f.0 != key
  {
    if |fields| == 0 then None
    else if fields[0].0 == key then Some(fields[0].1)
    else
      assert forall f :: f in fields ==> f == fields[0] || f in fields[1..];
      Lookup(fields[1..], key)
  }

  lemma {:induction false} LookupKeyed(fields: seq<(string, Field)>, key: string, v: Field)
    requires DistinctKeys(fields) && (key, v) in fields
    ensures Lookup(fields, key) == Some(v)
  {
    if fields[0].0 != key {
      var m :| 0 <= m < |fields| && fields[m] == (key, v);
      assert m > 0 && fields[1..][m - 1] == (key, v);
      assert DistinctKeys(fields[1..]) by {
        forall i, j | 0 <= i < j < |fields[1..]| ensures fields[1..][i].0 != fields[1..][j].0 {
          assert fields[1..][i] == fields[i + 1] && fields[1..][j] == fields[j + 1];
        }
      }
      LookupKeyed(fields[1..], key, v);
    } else {
      var m :| 0 <= m < |fields| && fields[m] == (key, v);
      assert m == 0;
    }
  }

  /** `item[key].format(**vars)`: it succeeds exactly when the field is a
      template whose placeholders are all bound, and an error names the
      field it arose in. */
  function Expand(fields: seq<(string, Field)>, key: string, vars: map<string, string>): (r: Result<string, Error>)
    ensures r.Ok? <==> Ready(fields, key, vars.Keys)
    ensures r.Err? ==> !r.error.DuplicateArgument? && r.error.key == key
  {
    match Lookup(fields, key)
    case None => Err(MissingField(key))
    case Some(Values(_)) => Err(NotText(key))
    case Some(Text(t)) =>
      FormatOkIff(t, vars);
      match Format(t, vars)
      case Err(reason) => Err(BadTemplate(key, reason))
      case Ok(s) => Ok(s)
  }

  /** `item[key]` is a template that `format` fills from any binding of
      `names`. */
  predicate Ready(fields: seq<(string, Field)>, key: string, names: set<string>)
  {
    && Lookup(fields, key).Some?
    && Lookup(fields, key).value.Text?
    && WellFormed(Lookup(fields, key).value.text)
    && forall n :: n in FindFields(Lookup(fields, key).value.text) ==> n in names
  }

  /** The keyword arguments of `get_output_folder(folder_name=name, **vars)`. */
  function FolderArgs(name: string, vars: map<string, string>): OutputFolder.Kwargs
  {
    (map k | k in vars :: Some(vars[k]))["folder_name" := Some(name)]
  }

  /** One iteration of the inner loop of `main`: the folder, then
      `os.path.join(BASE_URL, intermediate_url, file_template)` with both
      templates filled from the combination. It succeeds exactly when the
      combination does not rebind `folder_name` and both templates are
      well formed with every placeholder bound; the folder is the root, the
      entry name and the model, year and emission the combination binds;
      and the URL ends in the filled file template. */
  function TargetFor(e: Entry, vars: map<string, string>): (r: Result<Target, Error>)
    ensures r.Ok? <==> && "folder_name" !in vars
                       && Ready(e.fields, "intermediate_url", vars.Keys)
                       && Ready(e.fields, "file_template", vars.Keys)
    ensures "folder_name" in vars ==> r == Err(DuplicateArgument("folder_name"))
    ensures r.Ok? ==> r.value.folder == OutputFolder.Root + ("/" + e.name) + Segment(vars, "model")
                                        + Segment(vars, "year") + Segment(vars, "emission") + "/"
    ensures r.Ok? ==> var file := Expand(e.fields, "file_template", vars).value;
                      |file| <= |r.value.url| && r.value.url[|r.value.url| - |file|..] == file
  {
    if "folder_name" in vars then Err(DuplicateArgument("folder_name"))
    else
      FolderLayout(e.name, vars);
      var folder := OutputFolder.GetOutputFolder(FolderArgs(e.name, vars));
      match Expand(e.fields, "intermediate_url", vars)
      case Err(x) => Err(x)
      case Ok(inter) =>
        match Expand(e.fields, "file_template", vars)
        case Err(x) => Err(x)
        case Ok(file) => Ok(Target(folder, Join(Join(BaseUrl, inter), file)))
  }

  /** `/value` when the combination binds `k`, nothing otherwise. */
  function Segment(vars: map<string, string>, k: string): string
  {
    if k in vars then "/" + vars[k] else ""
  }

  /** The folder of a combination: the root, the entry name, then the
      model, year and emission that the combination binds, in that order;
      every other name, `month` included, is ignored. */
  lemma FolderLayout(name: string, vars: map<string, string>)
    requires "folder_name" !in vars
    ensures OutputFolder.GetOutputFolder(FolderArgs(name, vars))
            == OutputFolder.Root + ("/" + name) + Segment(vars, "model") + Segment(vars, "year")
               + Segment(vars, "emission") + "/"
  {
    var kw := FolderArgs(name, vars);
    var c1, c2, c3, c4 := OutputFolder.Component(kw, "folder_name"), OutputFolder.Component(kw, "model"),
                          OutputFolder.Component(kw, "year"), OutputFolder.Component(kw, "emission");
    assert OutputFolder.GetOutputFolder(kw) == OutputFolder.Root + c1 + c2 + c3 + c4 + "/" by {
      OutputFolder.PresentPlaceholders(kw);
    }
  }

  /** The values of a run of steps, stopping at the first failure. */
  function Collect<T, E>(rs: seq<Result<T, E>>): (r: Result<seq<T>, E>)
    ensures r.Ok? <==> forall i :: 0 <= i < |rs| ==> rs[i].Ok?
    ensures r.Ok? ==> |r.value| == |rs| && forall i :: 0 <= i < |rs| ==> rs[i] == Ok(r.value[i])
    ensures r.Err? ==> exists i :: 0 <= i < |rs| && rs[i] == Err(r.error) && forall j :: 0 <= j < i ==> rs[j].Ok?
  {
    if |rs| == 0 then Ok([])
    else
      var n := |rs| - 1;
      assert forall i :: 0 <= i < n ==> rs[..n][i] == rs[i];
      match Collect(rs[..n])
      case Err(x) => Err(x)
      case Ok(ts) =>
        match rs[n]
        case Err(x) => Err(x)
        case Ok(t) => Ok(ts + [t])
  }

  /** Once a prefix fails, the whole run fails the same way. */
  lemma {:induction false} CollectStops<T, E>(rs: seq<Result<T, E>>, j: nat)
    requires j <= |rs| && Collect(rs[..j]).Err?
    ensures Collect(rs) == Collect(rs[..j])
    decreases |rs|
  {
    if j < |rs| {
      var n := |rs| - 1;
      assert rs[..n][..j] == rs[..j];
      CollectStops(rs[..n], j);
    } else {
      assert rs[..j] == rs;
    }
  }

  /** The outcome of each combination of an entry, in product order. */
  function Steps(e: Entry): (r: seq<Result<Target, Error>>)
    ensures |r| == Count(Axes(e.fields))
    ensures forall i :: 0 <= i < |r| ==> r[i] == TargetFor(e, Product(Axes(e.fields))[i])
  {
    var combos := Product(Axes(e.fields));
    seq(|combos|, i requires 0 <= i < |combos| => TargetFor(e, combos[i]))
  }

  /** The inner loop of `main` over one entry. */
  function EntryTargets(e: Entry): (r: Result<seq<Target>, Error>)
    ensures r.Ok? ==> |r.value| == Files(e)
  {
    Collect(Steps(e))
  }

  /** The number of files an entry asks for. */
  function Files(e: Entry): nat
  {
    Count(Axes(e.fields))
  }

  /** `total` after the loop: the sum over the entries of the product of
      their list lengths. No entry asks for more files than the total. */
  function Total(scheme: seq<Entry>): (r: nat)
    ensures forall i :: 0 <= i < |scheme| ==> Files(scheme[i]) <= r
  {
    if |scheme| == 0 then 0 else Total(scheme[..|scheme| - 1]) + Files(scheme[|scheme| - 1])
  }

  /** `main` prints 0 exactly when no entry has a combination. */
  lemma {:induction false} TotalZeroIff(scheme: seq<Entry>)
    ensures Total(scheme) == 0 <==> forall i :: 0 <= i < |scheme| ==> Files(scheme[i]) == 0
  {
    if |scheme| > 0 {
      var n := |scheme| - 1;
      TotalZeroIff(scheme[..n]);
      assert forall i :: 0 <= i < n ==> scheme[..n][i] == scheme[i];
    }
  }

  /** The concatenated values of a run of steps, stopping at the first
      failure. */
  function Flatten<T, E>(rs: seq<Result<seq<T>, E>>): (r: Result<seq<T>, E>)
    ensures r.Ok? <==> forall i :: 0 <= i < |rs| ==> rs[i].Ok?
  {
    if |rs| == 0 then Ok([])
    else
      var n := |rs| - 1;
      assert forall i :: 0 <= i < n ==> rs[..n][i] == rs[i];
      match Flatten(rs[..n])
      case Err(x) => Err(x)
      case Ok(ts) =>
        match rs[n]
        case Err(x) => Err(x)
        case Ok(us) => Ok(ts + us)
  }

  lemma {:induction false} FlattenStops<T, E>(rs: seq<Result<seq<T>, E>>, j: nat)
    requires j <= |rs| && Flatten(rs[..j]).Err?
    ensures Flatten(rs) == Flatten(rs[..j])
    decreases |rs|
  {
    if j < |rs| {
      var n := |rs| - 1;
      assert rs[..n][..j] == rs[..j];
      FlattenStops(rs[..n], j);
    } else {
      assert rs[..j] == rs;
    }
  }

  /** The outcome of each entry, in catalog order. */
  function Entries(scheme: seq<Entry>): (r: seq<Result<seq<Target>, Error>>)
    ensures |r| == |scheme| && forall i :: 0 <= i < |r| ==> r[i] == EntryTargets(scheme[i])
  {
    seq(|scheme|, i requires 0 <= i < |scheme| => EntryTargets(scheme[i]))
  }

  /** The outer loop of `main`: every entry's targets, in catalog order,
      stopping at the first failure. */
  function Run(scheme: seq<Entry>): (r: Result<seq<Target>, Error>)
    ensures r.Ok? <==> forall i :: 0 <= i < |scheme| ==> EntryTargets(scheme[i]).Ok?
  {
    Flatten(Entries(scheme))
  }

  /** A run that plans every entry plans `Total` files. */
  lemma {:induction false} RunCount(scheme: seq<Entry>)
    requires Run(scheme).Ok?
    ensures |Run(scheme).value| == Total(scheme)
    decreases |scheme|
  {
    if |scheme| > 0 {
      var n := |scheme| - 1;
      var ps := Entries(scheme);
      assert ps[..n] == Entries(scheme[..n]);
      RunCount(scheme[..n]);
      assert |ps[n].value| == Files(scheme[n]);
    }
  }

  /** The inner loop of `main` over one entry's combinations: the values
      in order and how many were counted, or the first failure. */
  method CollectSteps<T, E>(steps: seq<Result<T, E>>) returns (r: Result<seq<T>, E>, count: nat)
    ensures r == Collect(steps)
    ensures r.Ok? ==> count == |r.value| == |steps|
  {
    var mine: seq<T> := [];
    count := 0;
    var j := 0;
    while j < |steps|
      invariant j <= |steps|
      invariant Collect(steps[..j]) == Ok(mine) && count == |mine|
    {
      assert steps[..j + 1][..j] == steps[..j];
      var t := steps[j];
      if t.Err? {
        CollectStops(steps, j + 1);
        return Err(t.error), count;
      }
      mine := mine + [t.value];
      count := count + 1;
      j := j + 1;
    }
    assert steps[..j] == steps;
    r := Ok(mine);
  }

  /** `main` over one entry: its planned downloads in order, and how many
      it counted. */
  method PlanEntry(e: Entry) returns (r: Result<seq<Target>, Error>, count: nat)
    ensures r == EntryTargets(e)
    ensures r.Ok? ==> count == |r.value| == Files(e)
  {
    r, count := CollectSteps(Steps(e));
  }

  /** One more successful entry extends the run by its downloads. */
  lemma RunStep(scheme: seq<Entry>, i: nat, done: seq<Target>)
    requires i < |scheme| && Run(scheme[..i]) == Ok(done) && EntryTargets(scheme[i]).Ok?
    ensures Run(scheme[..i + 1]) == Ok(done + EntryTargets(scheme[i]).value)
  {
    var ps := Entries(scheme[..i + 1]);
    assert ps[..i] == Entries(scheme[..i]);
    assert ps[i] == EntryTargets(scheme[i]);
  }

  /** The first entry that fails decides the outcome of the whole run. */
  lemma RunStops(scheme: seq<Entry>, i: nat)
    requires i < |scheme| && Run(scheme[..i]).Ok? && EntryTargets(scheme[i]).Err?
    ensures Run(scheme) == EntryTargets(scheme[i])
  {
    var ps := Entries(scheme);
    assert ps[..i] == Entries(scheme[..i]);
    assert Flatten(ps[..i + 1]) == EntryTargets(scheme[i]) by {
      assert ps[..i + 1][..i] == ps[..i];
      assert ps[i] == EntryTargets(scheme[i]);
    }
    FlattenStops(ps, i + 1);
  }

  /** `main` as a loop: the planned downloads in order and the count it
      prints. When some iteration raises, the error is reported instead. */
  method Plan(scheme: seq<Entry>) returns (r: Result<seq<Target>, Error>, total: nat)
    ensures r == Run(scheme)
    ensures r.Ok? ==> total == |r.value| == Total(scheme)
  {
    var done: seq<Target> := [];
    total := 0;
    var i := 0;
    assert scheme[..0] == [];
    while i < |scheme|
      invariant i <= |scheme|
      invariant Run(scheme[..i]) == Ok(done) && total == |done|
    {
      var mine, count := PlanEntry(scheme[i]);
      if mine.Err? {
        RunStops(scheme, i);
        return mine, total + count;
      }
      RunStep(scheme, i, done);
      done := done + mine.value;
      total := total + count;
      i := i + 1;
    }
    assert scheme[..i] == scheme;
    r := Ok(done);
    RunCount(scheme);
  }

  /** An entry every combination of which succeeds: `folder_name` is not a
      list field and both templates are filled by the list fields. */
  predicate Consistent(e: Entry)
  {
    var names := KeySet(Axes(e.fields));
    && "folder_name" !in names
    && Ready(e.fields, "intermediate_url", names)
    && Ready(e.fields, "file_template", names)
  }

  /** A keyed entry with at least one combination plans without error
      exactly when it is consistent. */
  lemma ConsistentIff(e: Entry)
    requires DistinctKeys(e.fields) && Files(e) > 0
    ensures EntryTargets(e).Ok? <==> Consistent(e)
  {
    var axes := Axes(e.fields);
    AxesKeyed(e.fields);
    forall k | 0 <= k < Count(axes)
      ensures TargetFor(e, Product(axes)[k]).Ok? <==> Consistent(e)
    {
      ProductBinds(axes, k);
    }
    assert TargetFor(e, Product(axes)[0]).Ok? <==> Consistent(e);
  }

  /** A consistent keyed entry plans every combination, whatever its size. */
  lemma ConsistentPlans(e: Entry)
    requires DistinctKeys(e.fields) && Consistent(e)
    ensures EntryTargets(e).Ok? && |EntryTargets(e).value| == Files(e)
  {
    var axes := Axes(e.fields);
    AxesKeyed(e.fields);
    forall k | 0 <= k < Count(axes) ensures TargetFor(e, Product(axes)[k]).Ok? {
      ProductBinds(axes, k);
    }
  }
}

=== FILE: download.dfy ===
/** The pure part of `download`: where a URL is saved, how the reported
    size is read, and whether the local copy is kept, removed or fetched.
    The HTTP request, the file system and the progress bar are not
    modelled; the local file's size and the `Content-length` header come in
    as parameters. */

module Download {
  import opened Wrappers
  import opened PyStr
  import opened Templates
  import opened Cartesian
  import opened Catalog
  import opened Chelsa

  /** `Content-length` as `download` reads it: a missing header is 0, and so
      is one `int()` rejects. Any other size is what `int()` reads from a
      header that is present. */
  function RemoteSize(header: Option<string>): (r: int)
    ensures r != 0 ==> header.Some? && ParseInt(header.value) == Some(r)
  {
    match header
    case None => 0
    case Some(text) => match ParseInt(text) case Some(n) => n case None => 0
  }

  /** A header carrying a decimal size is read back as that size. */
  lemma RemoteSizeOfDecimal(n: nat)
    ensures RemoteSize(Some(Decimal(n))) == n
  {
    ParseDecimal(n);
  }

  function Abs(x: int): nat
  {
    if x < 0 then -x else x
  }

  /** The three branches of the size check. */
  datatype Decision =
    | Replace  // the sizes differ: delete the local file, then fetch
    | Fetch    // no local bytes: fetch
    | Keep     // close enough: return without fetching

  /** The size check, with `0.2 * file_size` read exactly: the two sizes
      differ when they are more than a fifth of the local size apart. */
  function Decide(local: nat, remote: int): (d: Decision)
    ensures d == Keep <==> local > 0 && 4 * local <= 5 * remote <= 6 * local
    ensures d == Fetch <==> local == 0
    ensures d == Replace <==> local > 0 && (5 * remote < 4 * local || 6 * local < 5 * remote)
  {
    if 5 * Abs(remote - local) > local && local != 0 then Replace
    else if local == 0 then Fetch
    else Keep
  }

  /** What one call does: the path it saves under, the branch it takes,
      whether it removes the local file and whether it writes the
      response. */
  datatype Action = Action(path: string, decision: Decision, removed: bool, written: bool)

  /** `download(url, output_path, dry_run)` given the local file's size
      (0 when it does not exist) and the `Content-length` header. */
  function Download(url: string, outputPath: string, local: nat, header: Option<string>, dryRun: bool): (a: Action)
    ensures LastSegment(a.path) == LastSegment(url)
    ensures a.removed <==> local > 0 && (5 * RemoteSize(header) < 4 * local || 6 * local < 5 * RemoteSize(header))
    ensures a.written <==>
              && !dryRun && RemoteSize(header) != 0
              && !(local > 0 && 4 * local <= 5 * RemoteSize(header) <= 6 * local)
  {
    var path := Join(outputPath, LastSegment(url));
    LastSegmentOfJoin(outputPath, LastSegment(url));
    var remote := RemoteSize(header);
    var d := Decide(local, remote);
    Action(path, d, d == Replace, d != Keep && !dryRun && remote != 0)
  }

  /** A file whose size matches the header is left alone, dry run or not:
      running the downloader a second time after a complete download does
      nothing. */
  lemma CompleteFileKept(url: string, outputPath: string, n: nat, dryRun: bool)
    requires n > 0
    ensures var a := Download(url, outputPath, n, Some(Decimal(n)), dryRun);
            a.decision == Keep && !a.removed && !a.written
  {
    RemoteSizeOfDecimal(n);
  }

  /** With no local file and a positive reported size, a real run fetches
      and removes nothing. */
  lemma MissingFileFetched(url: string, outputPath: string, n: nat)
    requires n > 0
    ensures var a := Download(url, outputPath, 0, Some(Decimal(n)), false);
            a.decision == Fetch && !a.removed && a.written
  {
    RemoteSizeOfDecimal(n);
  }

  /** A reported size of 0, absent or unreadable, is never fetched. */
  lemma ZeroNeverFetched(url: string, outputPath: string, local: nat, header: Option<string>, dryRun: bool)
    requires RemoteSize(header) == 0
    ensures !Download(url, outputPath, local, header, dryRun).written
  {
  }

  /** The directory `download` saves into ends in `/` and the file name
      holds none, so the saved path is the two pasted together. */
  lemma SavedPath(url: string, outputPath: string, local: nat, header: Option<string>, dryRun: bool)
    requires |outputPath| > 0 && outputPath[|outputPath| - 1] == '/'
    ensures Download(url, outputPath, local, header, dryRun).path == outputPath + LastSegment(url)
  {
    var name := LastSegment(url);
    if |name| > 0 {
      assert name[0] != '/';
    }
  }

  // The code as written deletes on a dry run and deletes when the size is
  // unknown; the two lemmas below exhibit each.

  /** A dry run over a file the server reports as more than a fifth
      larger deletes the file; for instance a 100-byte file reported as
      300 bytes. */
  lemma DryRunRemovesFile(url: string, outputPath: string, local: nat, n: nat)
    requires local > 0 && 6 * local < 5 * n
    ensures var a := Download(url, outputPath, local, Some(Decimal(n)), true);
            a.removed && !a.written
  {
    RemoteSizeOfDecimal(n);
  }

  /** Without a `Content-length` header, or with one `int()` rejects, a
      non-empty file is deleted and nothing is fetched in its place, dry run
      or not; for instance a 100-byte file and no header. */
  lemma MissingLengthRemovesFile(url: string, outputPath: string, local: nat, header: Option<string>, dryRun: bool)
    requires local > 0 && ReportedSize(header).None?
    ensures var a := Download(url, outputPath, local, header, dryRun);
            a.removed && !a.written
  {
  }

  /** The size as the server reports it, when it does. */
  function ReportedSize(header: Option<string>): (r: Option<int>)
    ensures r.Some? ==> RemoteSize(header) == r.value
    ensures r.None? ==> RemoteSize(header) == 0
  {
    match header
    case None => None
    case Some(text) => ParseInt(text)
  }

  /** `download` as it is evidently meant to behave: a dry run changes
      nothing on disk, and an existing file is kept when the server does
      not report a size. */
  function SafeDownload(url: string, outputPath: string, local: nat, header: Option<string>, dryRun: bool): (a: Action)
    ensures dryRun ==> !a.removed && !a.written
    ensures local > 0 && ReportedSize(header).None? ==> !a.removed && !a.written
    ensures a.path == Download(url, outputPath, local, header, dryRun).path
  {
    var planned := Download(url, outputPath, local, header, dryRun);
    if local > 0 && ReportedSize(header).None? then planned.(decision := Keep, removed := false, written := false)
    else planned.(removed := planned.removed && !dryRun)
  }

  /** Where the server reports a size and the run is real, the corrected
      download does what the original does. */
  lemma SafeAgrees(url: string, outputPath: string, local: nat, header: Option<string>)
    requires ReportedSize(header).Some?
    ensures SafeDownload(url, outputPath, local, header, false) == Download(url, outputPath, local, header, false)
  {
  }

  /** The corrected download still refreshes a file whose reported size is
      more than a fifth away from the local one, on a real run. */
  lemma SafeReplaces(url: string, outputPath: string, local: nat, n: nat)
    requires local > 0 && (5 * n < 4 * local || 6 * local < 5 * n)
    ensures var a := SafeDownload(url, outputPath, local, Some(Decimal(n)), false);
            a.removed && (a.written <==> n != 0)
  {
    RemoteSizeOfDecimal(n);
    ParseDecimal(n);
    assert ReportedSize(Some(Decimal(n))) == Some(n);
  }

  /** `main` hands `download` the planned folder and URL; the file lands in
      that folder under the filled file template. */
  lemma PlannedDownload(b: Blueprint, k: nat, local: nat, header: Option<string>, dryRun: bool)
    requires WellBuilt(b) && k < Count(b.axes)
    ensures EntryTargets(Build(b)).Ok? && |EntryTargets(Build(b)).value| == Count(b.axes)
    ensures var t := EntryTargets(Build(b)).value[k];
            var vars := Product(b.axes)[k];
            && Covered(b.file, vars.Keys)
            && Download(t.url, t.folder, local, header, dryRun).path == t.folder + Fill(b.file, vars)
  {
    PlannedTarget(b, k);
    var t := EntryTargets(Build(b)).value[k];
    var folder := t.folder;
    assert folder[|folder| - 1] == '/';
    SavedPath(t.url, folder, local, header, dryRun);
  }
}

=== FILE: folder.dfy ===
/** `get_output_folder`: renders the fixed output-path template, collapsing
    the `/{name}/` segment of every placeholder that has no value. */
module OutputFolder {
  import opened Wrappers
  import opened PyStr
  import opened Templates

  const Root := "/home/dmitry/bin/chelsa"
  const Placeholders := ["folder_name", "model", "year", "emission"]

  /** `/{k1}/{k2}/.../{kn}/`: one path segment per placeholder. */
  function Segments(keys: seq<string>): string
  {
    if |keys| == 0 then "/" else "/{" + keys[0] + "}" + Segments(keys[1..])
  }

  /** `OUTPUT_FOLDER_TEMPLATE`, that is
      `/home/dmitry/bin/chelsa/{folder_name}/{model}/{year}/{emission}/`. */
  const OutputFolderTemplate := Root + Segments(Placeholders)

  /** Keyword arguments; `None` is a value distinct from an absent key. */
  type Kwargs = map<string, Option<string>>

  /** `kwargs.get(kw, None) is None`. */
  predicate Missing(kwargs: Kwargs, kw: string)
  {
    kw !in kwargs || kwargs[kw].None?
  }

  /** The bindings the loop collects in `to_render`: every listed name that
      has a value. */
  function Bound(names: seq<string>, kwargs: Kwargs): map<string, string>
  {
    map n | n in names && !Missing(kwargs, n) :: kwargs[n].value
  }

  /** The loop of `get_output_folder` over the names found in the template:
      a name without a value has its `/{name}/` segment replaced by `/`; a
      name with a value is kept for rendering. */
  function Collapse(template: string, names: seq<string>, kwargs: Kwargs): (r: (string, map<string, string>))
    ensures r.1 == Bound(names, kwargs)
    ensures (forall n :: n in names ==> !Missing(kwargs, n)) ==> r.0 == template
    decreases |names|
  {
    if |names| == 0 then (template, map[])
    else
      var kw := names[0];
      assert forall n :: n in names <==> n == kw || n in names[1..];
      if Missing(kwargs, kw) then
        Collapse(Replace(template, "/{" + kw + "}/", "/"), names[1..], kwargs)
      else
        var r := Collapse(template, names[1..], kwargs);
        (r.0, r.1[kw := kwargs[kw].value])
  }

  /** `get_output_folder(**kwargs)` for an arbitrary template. A missing
      placeholder that is not a whole path segment survives the collapse and
      makes `format` raise. When every placeholder has a value nothing is
      collapsed, and the result is plain `format` of the template. */
  function GetOutputFolderFor(template: string, kwargs: Kwargs): (r: Result<string, FormatError>)
    ensures (forall n :: n in FindFields(template) ==> !Missing(kwargs, n))
            ==> r == Format(template, Bound(FindFields(template), kwargs))
  {
    var r := Collapse(template, FindFields(template), kwargs);
    Format(r.0, r.1)
  }

  /** The path the resolver is meant to build: the root, then one `/value`
      component for each placeholder that has a value, in template order,
      then a closing `/`. */
  function Expected(root: string, keys: seq<string>, kwargs: Kwargs): string
  {
    root + Present(keys, kwargs) + "/"
  }

  function Present(keys: seq<string>, kwargs: Kwargs): string
  {
    if |keys| == 0 then ""
    else Component(kwargs, keys[0]) + Present(keys[1..], kwargs)
  }

  /** `/value` for a placeholder with a value, nothing otherwise. */
  function Component(kwargs: Kwargs, k: string): string
  {
    if Missing(kwargs, k) then "" else "/" + kwargs[k].value
  }

  /** `get_output_folder(**kwargs)` with the fixed template: it never raises,
      and it builds the path `Expected` describes. */
  function GetOutputFolder(kwargs: Kwargs): (r: string)
    ensures GetOutputFolderFor(OutputFolderTemplate, kwargs) == Ok(r)
    ensures r == Expected(Root, Placeholders, kwargs)
  {
    PlaceholdersShape();
    ResolvesToExpected(Root, Placeholders, kwargs);
    GetOutputFolderFor(OutputFolderTemplate, kwargs).value
  }

  predicate DistinctNames(keys: seq<string>)
  {
    forall i, j :: 0 <= i < j < |keys| ==> keys[i] != keys[j]
  }

  predicate ValidNames(keys: seq<string>)
  {
    forall i :: 0 <= i < |keys| ==> ValidName(keys[i])
  }

  lemma PlaceholdersShape()
    ensures Plain(Root) && ValidNames(Placeholders) && DistinctNames(Placeholders)
  {
  }

  lemma SegmentsUnfold(k: string, ks: seq<string>)
    ensures Segments([k] + ks) == "/" + ("{" + k + "}" + Segments(ks))
  {
    assert ([k] + ks)[1..] == ks;
  }

  /** `findall` recovers the placeholder names of a segment template. */
  lemma {:induction false} SegmentsFields(keys: seq<string>)
    requires ValidNames(keys)
    ensures FindFields(Segments(keys)) == keys
    ensures WellFormed(Segments(keys))
  {
    if |keys| == 0 {
      PlainPrefix("/", "", map[]);
      assert "/" + "" == "/";
    } else {
      var ks := keys[1..];
      assert keys == [keys[0]] + ks;
      SegmentsUnfold(keys[0], ks);
      SegmentsFields(ks);
      PlainPrefix("/", "{" + keys[0] + "}" + Segments(ks), map[]);
      TokenPrefix(keys[0], Segments(ks), map[]);
    }
  }

  /** `format` on a segment template whose every placeholder is bound. */
  lemma {:induction false} SegmentsFormat(keys: seq<string>, m: map<string, string>)
    requires ValidNames(keys)
    requires forall i :: 0 <= i < |keys| ==> keys[i] in m
    ensures Format(Segments(keys), m) == Ok(Values(keys, m) + "/")
  {
    if |keys| == 0 {
      PlainPrefix("/", "", m);
      assert "/" + "" == "/";
      assert Values(keys, m) + "/" == "/";
    } else {
      var k0, ks := keys[0], keys[1..];
      var tok := "{" + k0 + "}" + Segments(ks);
      assert Format(Segments(keys), m) == Prepend("/", Format(tok, m)) by {
        assert keys == [k0] + ks;
        SegmentsUnfold(k0, ks);
        PlainPrefix("/", tok, m);
      }
      assert Format(tok, m) == Prepend(m[k0], Format(Segments(ks), m)) by {
        TokenPrefix(k0, Segments(ks), m);
      }
      assert Format(Segments(ks), m) == Ok(Values(ks, m) + "/") by {
        assert ValidNames(ks) by {
          forall i | 0 <= i < |ks| ensures ValidName(ks[i]) { assert ks[i] == keys[i + 1]; }
        }
        assert forall i :: 0 <= i < |ks| ==> ks[i] in m by {
          forall i | 0 <= i < |ks| ensures ks[i] in m { assert ks[i] == keys[i + 1]; }
        }
        SegmentsFormat(ks, m);
      }
      assert Values(keys, m) == "/" + m[k0] + Values(ks, m);
      assert "/" + (m[k0] + (Values(ks, m) + "/")) == ("/" + m[k0] + Values(ks, m)) + "/";
    }
  }

  /** `/v1/v2/.../vn` for the bindings of the given names. */
  function Values(keys: seq<string>, m: map<string, string>): string
    requires forall i :: 0 <= i < |keys| ==> keys[i] in m
  {
    if |keys| == 0 then "" else "/" + m[keys[0]] + Values(keys[1..], m)
  }

  /** The names that survive the loop: those not yet visited, or visited and
      carrying a value. */
  function Kept(keys: seq<string>, visited: seq<string>, kwargs: Kwargs): (r: seq<string>)
    ensures forall i :: 0 <= i < |r| ==> r[i] in keys && (r[i] !in visited || !Missing(kwargs, r[i]))
    ensures forall k :: k in keys && (k !in visited || !Missing(kwargs, k)) ==> k in r
  {
    if |keys| == 0 then []
    else
      var rest := Kept(keys[1..], visited, kwargs);
      if keys[0] !in visited || !Missing(kwargs, keys[0]) then [keys[0]] + rest else rest
  }

  /** No occurrence of `/{k}/` can start inside literal text that is
      followed by a `/`. */
  lemma NoMatchInPlain(p: string, t: string, k: string)
    requires Plain(p) && |t| > 0 && t[0] == '/'
    ensures forall i: nat :: i < |p| ==> !MatchAt(p + t, "/{" + k + "}/", i)
  {
    var pat := "/{" + k + "}/";
    forall i: nat | i < |p|
      ensures !MatchAt(p + t, pat, i)
    {
      if i + 1 < |p| {
        assert (p + t)[i + 1] == p[i + 1];
      } else {
        assert (p + t)[i + 1] == t[0];
      }
    }
  }

  /** A match starts with the first character of the pattern. */
  lemma MatchHead(s: string, pat: string, i: nat)
    requires |pat| > 0 && MatchAt(s, pat, i)
    ensures s[i] == pat[0]
  {
    assert s[i..i + |pat|][0] == s[i];
  }

  /** A string that differs from the pattern at some position below the
      pattern's length does not start with it. */
  lemma DiffersAt(s: string, pat: string, j: nat)
    requires j < |pat| <= |s| && s[j] != pat[j]
    ensures !MatchAt(s, pat, 0)
  {
    assert s[..|pat|][j] == s[j];
  }

  /** No occurrence of `/{k}/` can start inside the token `{k0}`. */
  lemma NoMatchInToken(k0: string, t: string, k: string)
    requires ValidName(k0)
    ensures forall i: nat :: i < |k0| + 2 ==> !MatchAt("{" + k0 + "}" + t, "/{" + k + "}/", i)
  {
    var s := "{" + k0 + "}" + t;
    var pat := "/{" + k + "}/";
    forall i: nat | i < |k0| + 2
      ensures !MatchAt(s, pat, i)
    {
      assert s[i] != '/' by {
        if 0 < i <= |k0| {
          assert s[i] == k0[i - 1];
        }
      }
      if MatchAt(s, pat, i) {
        MatchHead(s, pat, i);
      }
    }
  }

  /** The segment `/{k0}` is not the pattern `/{k}/` for another name. */
  lemma SegmentIsNotPattern(k0: string, t: string, k: string)
    requires ValidName(k0) && ValidName(k) && k0 != k
    ensures !MatchAt("/{" + k0 + "}" + t, "/{" + k + "}/", 0)
  {
    var s := "/{" + k0 + "}" + t;
    var pat := "/{" + k + "}/";
    if |pat| <= |s| {
      if |k0| == |k| {
        var j :| 0 <= j < |k| && k0[j] != k[j];
        assert s[j + 2] == k0[j] && pat[j + 2] == k[j];
        DiffersAt(s, pat, j + 2);
      } else if |k0| < |k| {
        assert s[|k0| + 2] == '}';
        assert pat[|k0| + 2] == k[|k0|];
        DiffersAt(s, pat, |k0| + 2);
      } else {
        assert pat[|k| + 2] == '}';
        assert s[|k| + 2] == k0[|k|];
        DiffersAt(s, pat, |k| + 2);
      }
    }
  }

  /** Replacing `/{k}/` by `/` in a segment template removes exactly the
      segment of `k`. */
  lemma {:induction false} ReplaceInSegments(keys: seq<string>, k: string)
    requires ValidNames(keys) && DistinctNames(keys) && ValidName(k)
    ensures Replace(Segments(keys), "/{" + k + "}/", "/") == Segments(Without(keys, k))
    decreases |keys|, 2
  {
    var pat := "/{" + k + "}/";
    if |keys| == 0 {
      assert !Occurs("/", pat) by {
        forall i: nat ensures !MatchAt("/", pat, i) { }
      }
    } else {
      var k0, ks := keys[0], keys[1..];
      assert ValidNames(ks) && DistinctNames(ks) by {
        forall i | 0 <= i < |ks| ensures ks[i] == keys[i + 1] { }
      }
      assert Segments(keys) == "/{" + k0 + "}" + Segments(ks);
      if k0 == k {
        assert k !in ks by {
          forall i | 0 <= i < |ks| ensures ks[i] != k { assert ks[i] == keys[i + 1]; }
        }
        assert Without(keys, k) == ks by {
          WithoutAbsent(ks, k);
        }
        ReplaceFirstSegment(ks, k);
      } else {
        var head := "/{" + k0 + "}";
        assert Replace(Segments(keys), pat, "/") == head + Replace(Segments(ks), pat, "/") by {
          NoMatchInHead(k0, Segments(ks), k);
          ReplaceSkipsPrefix(head, Segments(ks), pat, "/");
        }
        ReplaceInSegments(ks, k);
        assert Without(keys, k) == [k0] + Without(ks, k);
        SegmentsUnfold(k0, Without(ks, k));
      }
    }
  }

  /** Removing the segment `/{k}` at the head of a segment template in which
      `k` does not appear again. */
  lemma ReplaceFirstSegment(ks: seq<string>, k: string)
    requires ValidNames(ks) && DistinctNames(ks) && ValidName(k) && k !in ks
    ensures Replace("/{" + k + "}" + Segments(ks), "/{" + k + "}/", "/") == Segments(ks)
    decreases |ks|, 1
  {
    var pat := "/{" + k + "}/";
    var tail := Segments(ks)[1..];
    assert "/" + tail == Segments(ks);
    assert "/{" + k + "}" + Segments(ks) == pat + tail;
    ReplaceAtMatch(tail, pat, "/");
    TailUnchanged(ks, k);
  }

  /** After the leading `/`, a segment template without `k` holds no
      `/{k}/`. */
  lemma TailUnchanged(ks: seq<string>, k: string)
    requires ValidNames(ks) && DistinctNames(ks) && ValidName(k) && k !in ks
    ensures Replace(Segments(ks)[1..], "/{" + k + "}/", "/") == Segments(ks)[1..]
    decreases |ks|, 0
  {
    var pat := "/{" + k + "}/";
    var tail := Segments(ks)[1..];
    if |ks| == 0 {
      assert tail == "";
    } else {
      var k1, rest := ks[0], ks[1..];
      assert tail == "{" + k1 + "}" + Segments(rest);
      assert ValidNames(rest) && DistinctNames(rest) && k !in rest by {
        forall i | 0 <= i < |rest| ensures rest[i] == ks[i + 1] { }
      }
      assert Replace(Segments(rest), pat, "/") == Segments(rest) by {
        ReplaceInSegments(rest, k);
        WithoutAbsent(rest, k);
      }
      NoMatchInToken(k1, Segments(rest), k);
      ReplaceSkipsPrefix("{" + k1 + "}", Segments(rest), pat, "/");
    }
  }

  /** No occurrence of `/{k}/` starts inside `/{k0}` when `k0` is another
      name. */
  lemma NoMatchInHead(k0: string, t: string, k: string)
    requires ValidName(k0) && ValidName(k) && k0 != k
    ensures forall i: nat :: i < |k0| + 3 ==> !MatchAt("/{" + k0 + "}" + t, "/{" + k + "}/", i)
  {
    var s := "/{" + k0 + "}" + t;
    var pat := "/{" + k + "}/";
    SegmentIsNotPattern(k0, t, k);
    NoMatchInToken(k0, t, k);
    assert s[1..] == "{" + k0 + "}" + t;
    forall i: nat | 0 < i < |k0| + 3 ensures !MatchAt(s, pat, i) {
      if MatchAt(s, pat, i) {
        assert s[1..][i - 1..i - 1 + |pat|] == s[i..i + |pat|];
        assert MatchAt(s[1..], pat, i - 1);
      }
    }
  }

  function Without(keys: seq<string>, k: string): seq<string>
  {
    if |keys| == 0 then []
    else (if keys[0] == k then [] else [keys[0]]) + Without(keys[1..], k)
  }

  lemma {:induction false} WithoutAbsent(keys: seq<string>, k: string)
    requires k !in keys
    ensures Without(keys, k) == keys
  {
    if |keys| > 0 {
      assert k !in keys[1..];
      WithoutAbsent(keys[1..], k);
      assert keys == [keys[0]] + keys[1..];
    }
  }

  lemma {:induction false} WithoutPreserves(keys: seq<string>, k: string)
    requires ValidNames(keys) && DistinctNames(keys)
    ensures ValidNames(Without(keys, k)) && DistinctNames(Without(keys, k))
    ensures forall x :: x in Without(keys, k) <==> x in keys && x != k
  {
    if |keys| > 0 {
      assert ValidNames(keys[1..]) && DistinctNames(keys[1..]) by {
        forall i | 0 <= i < |keys[1..]| ensures keys[1..][i] == keys[i + 1] { }
      }
      WithoutPreserves(keys[1..], k);
      assert keys[0] !in keys[1..] by {
        forall i | 0 <= i < |keys[1..]| ensures keys[1..][i] != keys[0] { assert keys[1..][i] == keys[i + 1]; }
      }
      assert forall x :: x in keys <==> x == keys[0] || x in keys[1..];
    }
  }

  /** Filtering out a missing name and then the rest of the loop keeps the
      same names as the rest of the loop with that name visited first. */
  lemma {:induction false} KeptWithout(keys: seq<string>, kw: string, rest: seq<string>, kwargs: Kwargs)
    requires Missing(kwargs, kw)
    ensures Kept(Without(keys, kw), rest, kwargs) == Kept(keys, [kw] + rest, kwargs)
  {
    if |keys| > 0 {
      KeptWithout(keys[1..], kw, rest, kwargs);
      var w := Without(keys[1..], kw);
      if keys[0] == kw {
        assert Without(keys, kw) == w;
      } else {
        var k0 := keys[0];
        assert Without(keys, kw) == [k0] + w;
        assert ([k0] + w)[0] == k0 && ([k0] + w)[1..] == w;
        assert (k0 in [kw] + rest) <==> k0 in rest;
        var a := Kept(w, rest, kwargs);
        assert Kept([k0] + w, rest, kwargs) == if k0 !in rest || !Missing(kwargs, k0) then [k0] + a else a;
      }
    }
  }

  lemma {:induction false} KeptPresent(keys: seq<string>, kw: string, rest: seq<string>, kwargs: Kwargs)
    requires !Missing(kwargs, kw)
    ensures Kept(keys, rest, kwargs) == Kept(keys, [kw] + rest, kwargs)
  {
    if |keys| > 0 {
      KeptPresent(keys[1..], kw, rest, kwargs);
    }
  }

  /** The template after the loop: exactly the segments of the names that
      survive it. */
  lemma {:induction false} CollapseSegments(root: string, keys: seq<string>, names: seq<string>, kwargs: Kwargs)
    requires Plain(root) && ValidNames(keys) && DistinctNames(keys) && ValidNames(names)
    ensures Collapse(root + Segments(keys), names, kwargs).0 == root + Segments(Kept(keys, names, kwargs))
    decreases |names|
  {
    if |names| == 0 {
      KeptNone(keys, kwargs);
    } else {
      var kw, rest := names[0], names[1..];
      assert names == [kw] + rest;
      assert ValidNames(rest) by {
        forall i | 0 <= i < |rest| ensures rest[i] == names[i + 1] { }
      }
      if Missing(kwargs, kw) {
        var pat := "/{" + kw + "}/";
        NoMatchInPlain(root, Segments(keys), kw);
        ReplaceSkipsPrefix(root, Segments(keys), pat, "/");
        ReplaceInSegments(keys, kw);
        WithoutPreserves(keys, kw);
        CollapseSegments(root, Without(keys, kw), rest, kwargs);
        KeptWithout(keys, kw, rest, kwargs);
      } else {
        CollapseSegments(root, keys, rest, kwargs);
        KeptPresent(keys, kw, rest, kwargs);
      }
    }
  }

  lemma {:induction false} KeptNone(keys: seq<string>, kwargs: Kwargs)
    ensures Kept(keys, [], kwargs) == keys
  {
    if |keys| > 0 {
      KeptNone(keys[1..], kwargs);
      assert keys == [keys[0]] + keys[1..];
    }
  }

  /** The `/value` components of the surviving names are those `Present`
      lists. */
  lemma {:induction false} ValuesOfKept(keys: seq<string>, kwargs: Kwargs, m: map<string, string>)
    requires forall k :: k in keys && !Missing(kwargs, k) ==> k in m && m[k] == kwargs[k].value
    ensures forall i :: 0 <= i < |Kept(keys, keys, kwargs)| ==> Kept(keys, keys, kwargs)[i] in m
    ensures Values(Kept(keys, keys, kwargs), m) == Present(keys, kwargs)
  {
    KeptSelf(keys, keys, kwargs, m);
  }

  lemma {:induction false} KeptSelf(keys: seq<string>, visited: seq<string>, kwargs: Kwargs, m: map<string, string>)
    requires forall k :: k in keys ==> k in visited
    requires forall k :: k in keys && !Missing(kwargs, k) ==> k in m && m[k] == kwargs[k].value
    ensures forall i :: 0 <= i < |Kept(keys, visited, kwargs)| ==> Kept(keys, visited, kwargs)[i] in m
    ensures Values(Kept(keys, visited, kwargs), m) == Present(keys, kwargs)
  {
    if |keys| > 0 {
      KeptSelf(keys[1..], visited, kwargs, m);
      var rest := Kept(keys[1..], visited, kwargs);
      if !Missing(kwargs, keys[0]) {
        assert Kept(keys, visited, kwargs) == [keys[0]] + rest;
        assert ([keys[0]] + rest)[1..] == rest;
      }
    }
  }

  /** The resolver builds `Expected` for any root without braces and any
      list of distinct placeholder names laid out one per segment. */
  lemma ResolvesToExpected(root: string, keys: seq<string>, kwargs: Kwargs)
    requires Plain(root) && ValidNames(keys) && DistinctNames(keys)
    ensures GetOutputFolderFor(root + Segments(keys), kwargs) == Ok(Expected(root, keys, kwargs))
  {
    var t := root + Segments(keys);
    assert FindFields(t) == keys by {
      SegmentsFields(keys);
      PlainPrefix(root, Segments(keys), map[]);
    }
    var kept := Kept(keys, keys, kwargs);
    var m := Bound(keys, kwargs);
    assert Collapse(t, keys, kwargs) == (root + Segments(kept), m) by {
      CollapseSegments(root, keys, keys, kwargs);
    }
    assert Format(root + Segments(kept), m) == Ok(root + (Present(keys, kwargs) + "/")) by {
      ValuesOfKept(keys, kwargs, m);
      assert ValidNames(kept) by {
        forall i | 0 <= i < |kept| ensures ValidName(kept[i]) {
          assert kept[i] in keys;
        }
      }
      SegmentsFormat(kept, m);
      PlainPrefix(root, Segments(kept), m);
    }
    assert root + (Present(keys, kwargs) + "/") == Expected(root, keys, kwargs);
  }

  /** No two consecutive `/` characters. */
  predicate NoDoubleSlash(s: string)
  {
    forall i :: 0 <= i < |s| - 1 ==> !(s[i] == '/' && s[i + 1] == '/')
  }

  lemma NoDoubleSlashAppend(a: string, b: string)
    requires NoDoubleSlash(a) && NoDoubleSlash(b)
    requires |a| == 0 || |b| == 0 || a[|a| - 1] != '/' || b[0] != '/'
    ensures NoDoubleSlash(a + b)
  {
    var s := a + b;
    forall i | 0 <= i < |s| - 1 ensures !(s[i] == '/' && s[i + 1] == '/') {
      if i + 1 < |a| {
        assert s[i] == a[i] && s[i + 1] == a[i + 1];
      } else if i >= |a| {
        assert s[i] == b[i - |a|] && s[i + 1] == b[i + 1 - |a|];
      }
    }
  }

  /** Every supplied value among `keys` is a non-empty path component. */
  predicate ComponentValues(keys: seq<string>, kwargs: Kwargs)
  {
    forall k :: k in keys && !Missing(kwargs, k) ==> |kwargs[k].value| > 0 && '/' !in kwargs[k].value
  }

  /** A `/` followed by a non-empty slash-free value: appended to a path
      not ending in `/`, it leaves no `//` and a path not ending in `/`. */
  lemma ComponentStep(p: string, v: string)
    requires |p| > 0 && p[|p| - 1] != '/' && NoDoubleSlash(p)
    requires |v| > 0 && '/' !in v
    ensures NoDoubleSlash(p + ("/" + v)) && (p + ("/" + v))[|p + ("/" + v)| - 1] != '/'
  {
    var w := "/" + v;
    assert NoDoubleSlash(w) by {
      forall i | 1 <= i < |w| ensures w[i] != '/' {
        assert w[i] == v[i - 1] && v[i - 1] in v;
      }
    }
    NoDoubleSlashAppend(p, w);
    var p' := p + w;
    assert p'[|p'| - 1] == v[|v| - 1] && v[|v| - 1] in v;
  }

  /** A component followed by the rest of the path, regrouped. */
  lemma ComponentThenRest(a: string, b: string, c: string)
    ensures a + (b + c) + "/" == a + b + c + "/"
  {
  }

  lemma {:induction false} PresentNoDoubleSlash(p: string, keys: seq<string>, kwargs: Kwargs)
    requires |p| > 0 && p[|p| - 1] != '/' && NoDoubleSlash(p)
    requires ComponentValues(keys, kwargs)
    ensures NoDoubleSlash(p + Present(keys, kwargs) + "/")
    decreases |keys|
  {
    if |keys| == 0 {
      assert p + Present(keys, kwargs) + "/" == p + "/";
      NoDoubleSlashAppend(p, "/");
    } else {
      var k0 := keys[0];
      assert ComponentValues(keys[1..], kwargs) by {
        forall k | k in keys[1..] ensures k in keys { }
      }
      var c := Component(kwargs, k0);
      var rest := Present(keys[1..], kwargs);
      ComponentThenRest(p, c, rest);
      if Missing(kwargs, k0) {
        assert p + c == p;
        PresentNoDoubleSlash(p, keys[1..], kwargs);
      } else {
        ComponentStep(p, kwargs[k0].value);
        PresentNoDoubleSlash(p + c, keys[1..], kwargs);
      }
    }
  }

  /** Collapsing never leaves an empty segment: when every supplied value is
      a non-empty component without `/`, the path has no `//`. */
  lemma NoEmptySegment(kwargs: Kwargs)
    requires ComponentValues(Placeholders, kwargs)
    ensures NoDoubleSlash(GetOutputFolder(kwargs))
  {
    PresentNoDoubleSlash(Root, Placeholders, kwargs);
  }

  /** No `{...}` token survives: with brace-free values the path has no
      brace at all. */
  lemma NoPlaceholderLeft(kwargs: Kwargs)
    requires forall k :: k in Placeholders && !Missing(kwargs, k) ==> Plain(kwargs[k].value)
    ensures Plain(GetOutputFolder(kwargs))
  {
    var r := GetOutputFolder(kwargs);
    PlaceholdersShape();
    SegmentsFields(Placeholders);
    PlainPrefix(Root, Segments(Placeholders), map[]);
    var c := Collapse(OutputFolderTemplate, Placeholders, kwargs);
    FormatLeavesNoBrace(c.0, c.1);
  }

  /** Two argument maps that agree on `keys`. */
  predicate AgreeOn(keys: seq<string>, k1: Kwargs, k2: Kwargs)
  {
    forall k :: k in keys ==> Missing(k1, k) == Missing(k2, k) && (!Missing(k1, k) ==> k1[k] == k2[k])
  }

  lemma {:induction false} PresentAgrees(keys: seq<string>, k1: Kwargs, k2: Kwargs)
    requires AgreeOn(keys, k1, k2)
    ensures Present(keys, k1) == Present(keys, k2)
    decreases |keys|
  {
    if |keys| > 0 {
      assert keys[0] in keys;
      assert AgreeOn(keys[1..], k1, k2) by {
        forall k | k in keys[1..] ensures k in keys { }
      }
      PresentAgrees(keys[1..], k1, k2);
    }
  }

  /** Only the four placeholders matter: arguments such as `month`, and the
      difference between an absent argument and one passed as `None`, have
      no effect on the path. */
  lemma IgnoresOtherArguments(k1: Kwargs, k2: Kwargs)
    requires AgreeOn(Placeholders, k1, k2)
    ensures GetOutputFolder(k1) == GetOutputFolder(k2)
  {
    PresentAgrees(Placeholders, k1, k2);
  }

  /** The path spelled out over the four placeholders. */
  lemma PresentPlaceholders(kwargs: Kwargs)
    ensures GetOutputFolder(kwargs)
            == Root + Component(kwargs, "folder_name") + Component(kwargs, "model")
               + Component(kwargs, "year") + Component(kwargs, "emission") + "/"
  {
    var ks := Placeholders;
    var k1, k2, k3 := ks[1..], ks[1..][1..], ks[1..][1..][1..];
    assert k1 == ["model", "year", "emission"] && k2 == ["year", "emission"] && k3 == ["emission"];
    assert Present(k3, kwargs) == Component(kwargs, "emission") by {
      assert k3[1..] == [];
    }
    assert Present(k2, kwargs) == Component(kwargs, "year") + Present(k3, kwargs);
    assert Present(k1, kwargs) == Component(kwargs, "model") + Present(k2, kwargs);
    assert Present(ks, kwargs) == Component(kwargs, "folder_name") + Present(k1, kwargs);
  }

  /** The path with one component, once the empty ones are dropped. */
  lemma OneComponentPath(r: string, n: string)
    ensures r + ("/" + n) + "" + "" + "" + "/" == r + "/" + n + "/"
  {
  }

  /** The path with two components, once the empty ones are dropped. */
  lemma TwoComponentPath(r: string, n: string, m: string)
    ensures r + ("/" + n) + ("/" + m) + "" + "" + "/" == r + "/" + n + "/" + m + "/"
  {
  }

  /** `get_output_folder(folder_name=n)`. */
  lemma OnlyFolderName(n: string)
    ensures GetOutputFolder(map["folder_name" := Some(n)]) == "/home/dmitry/bin/chelsa/" + n + "/"
  {
    var kw := map["folder_name" := Some(n)];
    PresentPlaceholders(kw);
    assert Component(kw, "folder_name") == "/" + n;
    assert Component(kw, "model") == "" && Component(kw, "year") == "" && Component(kw, "emission") == "" by {
      assert "model"[0] != "folder_name"[0] && "year"[0] != "folder_name"[0];
      assert "emission"[0] != "folder_name"[0];
    }
    assert Root + "/" == "/home/dmitry/bin/chelsa/";
    OneComponentPath(Root, n);
  }

  /** `get_output_folder(folder_name=n, model=m)`. */
  lemma FolderNameAndModel(n: string, m: string)
    ensures GetOutputFolder(map["folder_name" := Some(n), "model" := Some(m)])
            == "/home/dmitry/bin/chelsa/" + n + "/" + m + "/"
  {
    var kw := map["folder_name" := Some(n), "model" := Some(m)];
    PresentPlaceholders(kw);
    assert Component(kw, "folder_name") == "/" + n;
    assert Component(kw, "model") == "/" + m;
    assert Component(kw, "year") == "" && Component(kw, "emission") == "" by {
      assert "year"[0] != "folder_name"[0] && "year"[0] != "model"[0];
      assert "emission"[0] != "folder_name"[0] && "emission"[0] != "model"[0];
    }
    assert Root + "/" == "/home/dmitry/bin/chelsa/";
    TwoComponentPath(Root, n, m);
  }

  lemma {:induction false} KeptAll(keys: seq<string>, visited: seq<string>, kwargs: Kwargs)
    requires forall k :: k in keys ==> !Missing(kwargs, k)
    ensures Kept(keys, visited, kwargs) == keys
    decreases |keys|
  {
    if |keys| > 0 {
      assert keys[0] in keys;
      assert forall k :: k in keys[1..] ==> k in keys;
      KeptAll(keys[1..], visited, kwargs);
      assert keys == [keys[0]] + keys[1..];
    }
  }

  /** With every placeholder supplied nothing is collapsed: the path is the
      template with each `{name}` replaced by its value. */
  lemma AllSupplied(kwargs: Kwargs)
    requires forall k :: k in Placeholders ==> !Missing(kwargs, k)
    ensures Format(OutputFolderTemplate, Bound(Placeholders, kwargs)) == Ok(GetOutputFolder(kwargs))
  {
    PlaceholdersShape();
    assert FindFields(OutputFolderTemplate) == Placeholders by {
      SegmentsFields(Placeholders);
      PlainPrefix(Root, Segments(Placeholders), map[]);
    }
    assert Collapse(OutputFolderTemplate, Placeholders, kwargs).0 == OutputFolderTemplate by {
      CollapseSegments(Root, Placeholders, Placeholders, kwargs);
      KeptAll(Placeholders, Placeholders, kwargs);
    }
  }
}

=== FILE: pystr.dfy ===
/** The handful of Python string and path primitives the loader relies on:
    `str.replace`, `posixpath.join`, `url.split('/')[-1]`, `str(n)`,
    `'{:02d}'.format(n)` and `int(s)` on a base-10 string. */
module PyStr {
  import opened Wrappers

  /** `pat` occurs in `s` starting at position `i`. */
  predicate MatchAt(s: string, pat: string, i: nat)
  {
    i + |pat| <= |s| && s[i..i + |pat|] == pat
  }

  /** `pat` occurs somewhere in `s`. */
  ghost predicate Occurs(s: string, pat: string)
  {
    exists i: nat :: MatchAt(s, pat, i)
  }

  /** `s.replace(pat, rep)`: every non-overlapping occurrence of `pat`, found
      left to right, is replaced by `rep`. Python treats an empty pattern
      specially; the loader never passes one. */
  function Replace(s: string, pat: string, rep: string): (r: string)
    requires |pat| > 0
    ensures !Occurs(s, pat) ==> r == s
    decreases |s|
  {
    if |s| < |pat| then s
    else if s[..|pat|] == pat then
      assert MatchAt(s, pat, 0);
      rep + Replace(s[|pat|..], pat, rep)
    else
      assert forall i: nat :: MatchAt(s[1..], pat, i) ==> MatchAt(s, pat, i + 1);
      [s[0]] + Replace(s[1..], pat, rep)
  }

  /** A match of `pat` at the head of the string is replaced and scanning
      resumes after it. */
  lemma ReplaceAtMatch(t: string, pat: string, rep: string)
    requires |pat| > 0
    ensures Replace(pat + t, pat, rep) == rep + Replace(t, pat, rep)
  {
    assert (pat + t)[..|pat|] == pat;
    assert (pat + t)[|pat|..] == t;
  }

  /** A match found in the tail of a string is a match in the whole string,
      one position further on. */
  lemma MatchShift(s: string, pat: string, i: nat)
    requires |s| > 0 && MatchAt(s[1..], pat, i)
    ensures MatchAt(s, pat, i + 1)
  {
    assert s[1..][i..i + |pat|] == s[i + 1..i + 1 + |pat|];
  }

  /** A prefix in which no occurrence of `pat` can start is copied through
      unchanged. */
  lemma {:induction false} ReplaceSkipsPrefix(p: string, t: string, pat: string, rep: string)
    requires |pat| > 0
    requires forall i: nat :: i < |p| ==> !MatchAt(p + t, pat, i)
    ensures Replace(p + t, pat, rep) == p + Replace(t, pat, rep)
    decreases |p|
  {
    var s := p + t;
    if |p| == 0 {
      assert s == t;
    } else if |s| < |pat| {
      assert !Occurs(t, pat);
    } else {
      assert !MatchAt(s, pat, 0);
      assert s[..|pat|] != pat;
      assert s[1..] == p[1..] + t;
      forall i: nat | i < |p| - 1
        ensures !MatchAt(p[1..] + t, pat, i)
      {
        if MatchAt(s[1..], pat, i) {
          MatchShift(s, pat, i);
        }
      }
      ReplaceSkipsPrefix(p[1..], t, pat, rep);
      assert Replace(s, pat, rep) == [s[0]] + Replace(s[1..], pat, rep);
      HeadThenRest(p, Replace(t, pat, rep));
    }
  }

  lemma HeadThenRest<T>(p: seq<T>, r: seq<T>)
    requires |p| > 0
    ensures [p[0]] + (p[1..] + r) == p + r
  {
  }

  /** `posixpath.join(a, b)`: an absolute `b` replaces `a`; otherwise a `/`
      is inserted unless `a` is empty or already ends in one. */
  function Join(a: string, b: string): (r: string)
    ensures |r| >= |b| && r[|r| - |b|..] == b
    ensures |b| > 0 && b[0] == '/' ==> r == b
    ensures (|b| == 0 || b[0] != '/') ==> |r| >= |a| && r[..|a|] == a
  {
    if |b| > 0 && b[0] == '/' then b
    else if |a| == 0 || a[|a| - 1] == '/' then a + b
    else a + "/" + b
  }

  /** `s.split('/')[-1]`: the text after the last `/`, or all of `s`. */
  function LastSegment(s: string): (r: string)
    ensures '/' !in r
    ensures |r| <= |s|
    ensures |r| < |s| ==> s[|s| - |r| - 1] == '/'
  {
    if |s| == 0 then ""
    else if s[|s| - 1] == '/' then ""
    else LastSegment(s[..|s| - 1]) + [s[|s| - 1]]
  }

  /** The file name `download` derives from a joined URL is the last
      component that was joined, when that component has no `/`. */
  lemma LastSegmentOfJoin(a: string, b: string)
    requires '/' !in b
    ensures LastSegment(Join(a, b)) == b
  {
    if |a| == 0 || a[|a| - 1] == '/' {
      LastSegmentAfterSlash(a, b);
    } else {
      LastSegmentAfterSlash(a + "/", b);
      assert a + "/" + b == Join(a, b);
    }
  }

  lemma {:induction false} LastSegmentAfterSlash(x: string, b: string)
    requires '/' !in b
    requires |x| == 0 || x[|x| - 1] == '/'
    ensures LastSegment(x + b) == b
    decreases |b|
  {
    if |b| == 0 {
      assert x + b == x;
    } else {
      var b' := b[..|b| - 1];
      assert '/' !in b' by {
        forall i | 0 <= i < |b'| ensures b'[i] != '/' {
          assert b'[i] == b[i];
        }
      }
      assert b[|b| - 1] != '/' by {
        assert b[|b| - 1] in b;
      }
      LastSegmentAfterSlash(x, b');
      LastSegmentStep(x + b', b[|b| - 1]);
      InitThenLast(x, b);
    }
  }

  lemma InitThenLast<T>(x: seq<T>, b: seq<T>)
    requires |b| > 0
    ensures x + b == (x + b[..|b| - 1]) + [b[|b| - 1]]
    ensures b == b[..|b| - 1] + [b[|b| - 1]]
  {
  }

  /** The last segment is a suffix of the string it is taken from. */
  lemma {:induction false} LastSegmentIsSuffix(s: string)
    ensures s[|s| - |LastSegment(s)|..] == LastSegment(s)
  {
    if |s| > 0 && s[|s| - 1] != '/' {
      var s' := s[..|s| - 1];
      LastSegmentIsSuffix(s');
      assert s[|s| - |LastSegment(s)|..] == s'[|s'| - |LastSegment(s')|..] + [s[|s| - 1]];
    }
  }

  lemma LastSegmentStep(s: string, c: char)
    requires c != '/'
    ensures LastSegment(s + [c]) == LastSegment(s) + [c]
  {
    assert (s + [c])[..|s|] == s;
  }

  predicate IsDigit(c: char) { '0' <= c <= '9' }

  function DigitChar(d: nat): (c: char)
    requires d < 10
    ensures IsDigit(c) && c as int - '0' as int == d
  {
    ('0' as int + d) as char
  }

  /** `str(n)` for a non-negative integer: decimal digits, no leading zero. */
  function Decimal(n: nat): (r: string)
    ensures |r| > 0 && forall i :: 0 <= i < |r| ==> IsDigit(r[i])
    ensures |r| > 1 ==> r[0] != '0'
  {
    if n < 10 then [DigitChar(n)] else Decimal(n / 10) + [DigitChar(n % 10)]
  }

  /** `'{:02d}'.format(n)` for a non-negative integer: the digits of `n`,
      padded with a zero to two places. */
  function ZeroPad2(n: nat): (r: string)
    ensures |r| >= 2 && forall i :: 0 <= i < |r| ==> IsDigit(r[i])
    ensures n < 100 ==> |r| == 2
    ensures ValidDigits(r) && DigitsValue(r) == n
  {
    DecimalValue(n);
    if n < 10 then
      var r := "0" + Decimal(n);
      assert r[..|r| - 1] == "0";
      r
    else Decimal(n)
  }

  /** The characters below U+0080 that `int()` skips around a number:
      space, `\t`, `\n`, `\v`, `\f` and `\r`. The separators U+001C to
      U+001F, which `str.strip()` removes, are not among them. Whitespace
      beyond U+0080 is not modelled. */
  predicate IsSpace(c: char)
  {
    c == ' ' || c == '\t' || c == '\n' || c == '\r' || c == '\U{0B}' || c == '\U{0C}'
  }

  function StripLeft(s: string): (r: string)
    ensures |r| <= |s| && r == s[|s| - |r|..]
    ensures forall i :: 0 <= i < |s| - |r| ==> IsSpace(s[i])
    ensures |r| > 0 ==> !IsSpace(r[0])
  {
    if |s| > 0 && IsSpace(s[0]) then
      var r := StripLeft(s[1..]);
      assert forall i :: 1 <= i < |s| ==> s[1..][i - 1] == s[i];
      assert s[1..][|s| - 1 - |r|..] == s[|s| - |r|..];
      r
    else s
  }

  function StripRight(s: string): (r: string)
    ensures |r| <= |s| && r == s[..|r|]
    ensures forall i :: |r| <= i < |s| ==> IsSpace(s[i])
    ensures |r| > 0 ==> !IsSpace(r[|r| - 1])
  {
    if |s| > 0 && IsSpace(s[|s| - 1]) then
      var r := StripRight(s[..|s| - 1]);
      assert forall i :: 0 <= i < |s| - 1 ==> s[..|s| - 1][i] == s[i];
      r
    else s
  }

  /** Digits as `int()` accepts them: at least one digit, and each `_` sits
      between two digits. */
  predicate ValidDigits(d: string)
  {
    && |d| > 0
    && IsDigit(d[0])
    && IsDigit(d[|d| - 1])
    && (forall i :: 0 <= i < |d| ==> IsDigit(d[i]) || d[i] == '_')
    && (forall i :: 0 <= i < |d| - 1 ==> d[i] == '_' ==> IsDigit(d[i + 1]))
  }

  /** The number a digit string denotes, underscores ignored. */
  function DigitsValue(d: string): nat
  {
    if |d| == 0 then 0
    else if IsDigit(d[|d| - 1]) then 10 * DigitsValue(d[..|d| - 1]) + (d[|d| - 1] as int - '0' as int)
    else DigitsValue(d[..|d| - 1])
  }

  /** `int(s)` in base 10: `None` stands for the `ValueError` it raises. A
      value is read only from a string with something besides whitespace in
      it, and it is negative only when that content starts with `-`. */
  function ParseInt(s: string): (r: Option<int>)
    ensures r.Some? ==> |StripLeft(StripRight(s))| > 0
    ensures r.Some? && r.value < 0 ==> StripLeft(StripRight(s))[0] == '-'
  {
    ParseStripped(StripLeft(StripRight(s)))
  }

  /** `int()` once surrounding whitespace is gone: an optional sign, then
      digits. */
  function ParseStripped(t: string): (r: Option<int>)
    ensures r.Some? ==> |t| > 0
    ensures r.Some? && r.value < 0 ==> t[0] == '-'
  {
    if |t| > 0 && (t[0] == '+' || t[0] == '-') then
      if ValidDigits(t[1..]) then
        var v: int := DigitsValue(t[1..]);
        Some(if t[0] == '-' then -v else v)
      else None
    else if ValidDigits(t) then Some(DigitsValue(t))
    else None
  }

  lemma {:induction false} DecimalValue(n: nat)
    ensures ValidDigits(Decimal(n)) && DigitsValue(Decimal(n)) == n
  {
    var d := Decimal(n);
    if n >= 10 {
      DecimalValue(n / 10);
      assert d[..|d| - 1] == Decimal(n / 10);
    }
  }

  /** `int()` reads an unsigned digit string as its value. */
  lemma ParseDigits(d: string)
    requires ValidDigits(d)
    ensures ParseInt(d) == Some(DigitsValue(d))
  {
    StripsNothing(d);
  }

  /** `int(str(n)) == n`: the parser inverts the formatter, so a
      well-formed `Content-length` is read exactly. */
  lemma ParseDecimal(n: nat)
    ensures ParseInt(Decimal(n)) == Some(n)
  {
    var d := Decimal(n);
    DecimalValue(n);
    ParseDigits(d);
    assert ParseInt(d) == Some(DigitsValue(d));
  }

  /** Stripping the right end of `[c] + s` strips `s`, and keeps `c` unless
      all of it is whitespace. */
  lemma {:induction false} StripRightCons(c: char, s: string)
    ensures StripRight([c] + s) == if |StripRight(s)| == 0 && IsSpace(c) then [] else [c] + StripRight(s)
    decreases |s|
  {
    var cs := [c] + s;
    if |s| == 0 {
      assert cs[..0] == [];
    } else if IsSpace(s[|s| - 1]) {
      var s' := s[..|s| - 1];
      assert cs[..|cs| - 1] == [c] + s';
      StripRightCons(c, s');
    }
  }

  /** `int()` ignores whitespace around the number: one more whitespace
      character at the start, or at the end, changes nothing, whether or
      not the rest parses. */
  lemma ParseIgnoresSpace(s: string, c: char, d: char)
    requires IsSpace(c) && IsSpace(d)
    ensures ParseInt([c] + s) == ParseInt(s)
    ensures ParseInt(s + [d]) == ParseInt(s)
  {
    var t := s + [d];
    assert t[..|t| - 1] == s;
    assert StripRight(t) == StripRight(s);
    StripRightCons(c, s);
    if |StripRight(s)| > 0 {
      assert ([c] + StripRight(s))[1..] == StripRight(s);
    }
  }

  /** A character that is neither a digit nor `_` breaks a digit string. */
  lemma NotDigitsAt(d: string, i: nat)
    requires i < |d| && !IsDigit(d[i]) && d[i] != '_'
    ensures !ValidDigits(d)
  {
  }

  /** `int()` raises on content holding a character that is not a digit,
      `_` or a sign, such as a letter or a `.`: a `Content-length` of
      `"abc"` or `"1.5"` is rejected. */
  lemma ParseRejects(s: string, i: nat)
    requires var t := StripLeft(StripRight(s));
             i < |t| && !IsDigit(t[i]) && t[i] !in "_+-"
    ensures ParseInt(s).None?
  {
    var t := StripLeft(StripRight(s));
    if t[0] == '+' || t[0] == '-' {
      assert i > 0;
      NotDigitsAt(t[1..], i - 1);
    } else {
      NotDigitsAt(t, i);
    }
  }

  /** `int()` does not skip a leading file separator U+001C: the string is
      rejected, so such a `Content-length` reads as 0. */
  lemma SeparatorNotSkipped(n: nat)
    ensures ParseInt(['\U{1C}'] + Decimal(n)).None?
  {
    var t := ['\U{1C}'] + Decimal(n);
    var d := Decimal(n);
    assert t[0] == '\U{1C}';
    assert t[|t| - 1] == d[|d| - 1];
    EdgesKept(t);
    ParseRejects(t, 0);
  }

  /** A string whose first and last characters are not whitespace is left
      alone by stripping. */
  lemma EdgesKept(t: string)
    requires |t| > 0 && !IsSpace(t[0]) && IsDigit(t[|t| - 1])
    ensures StripLeft(StripRight(t)) == t
  {
    StripsNothing(t);
  }

  /** `int()` reads a digit string after a sign, zero-padded or with
      underscores between digits as it may be: `"+7"` is 7, `"-007"` is -7. */
  lemma ParseSigned(sign: char, d: string)
    requires sign == '+' || sign == '-'
    requires ValidDigits(d)
    ensures ParseInt([sign] + d) == Some(if sign == '-' then -(DigitsValue(d) as int) else DigitsValue(d))
  {
    var t := [sign] + d;
    assert t[0] == sign;
    assert t[|t| - 1] == d[|d| - 1];
    SignedStripsNothing(t);
    StrippedSigned(sign, d);
  }

  /** `int('-' + str(n)) == -n`: a negative printed size is read exactly. */
  lemma ParseNegativeDecimal(n: nat)
    ensures ParseInt("-" + Decimal(n)) == Some(-(n as int))
  {
    var d := Decimal(n);
    DecimalValue(n);
    ParseNegativeDigits(d, n);
  }

  lemma ParseNegativeDigits(d: string, v: nat)
    requires ValidDigits(d) && DigitsValue(d) == v
    ensures ParseInt("-" + d) == Some(-(v as int))
  {
    assert ParseInt(['-'] + d) == Some(-(v as int)) by {
      ParseSigned('-', d);
    }
    assert "-" + d == ['-'] + d;
  }

  lemma SignedStripsNothing(t: string)
    requires |t| > 0 && (t[0] == '+' || t[0] == '-') && IsDigit(t[|t| - 1])
    ensures StripLeft(StripRight(t)) == t
  {
    StripsNothing(t);
  }

  lemma StrippedSigned(sign: char, d: string)
    requires sign == '+' || sign == '-'
    requires ValidDigits(d)
    ensures ParseStripped([sign] + d) == Some(if sign == '-' then -(DigitsValue(d) as int) else DigitsValue(d))
  {
    assert ([sign] + d)[1..] == d;
  }

  /** A string that neither starts nor ends with a space is left alone by
      `strip()`. */
  lemma StripsNothing(s: string)
    requires |s| > 0 && !IsSpace(s[0]) && !IsSpace(s[|s| - 1])
    ensures StripLeft(StripRight(s)) == s
  {
  }
}

=== FILE: scheme.dfy ===
/** The twelve entries of `SCHEME`: four current climatologies with
    zero-padded months, four Last Glacial Maximum datasets per model, and
    four future projections per model, emission scenario and period. Each
    template is written as its pieces, and the entry is assembled the way
    the dictionary literal lays it out: `file_template`, then the list
    fields in order, then `intermediate_url`. */
module Chelsa {
  import opened Wrappers
  import opened PyStr
  import opened Templates
  import opened Cartesian
  import opened Catalog
  import OutputFolder

  /** `['{:02d}'.format(_) for _ in range(1, 13)]`. */
  const PaddedMonths: seq<string> := seq(12, i requires 0 <= i < 12 => ZeroPad2(i + 1))
  /** `['{}'.format(_) for _ in range(1, 13)]`. */
  const Months: seq<string> := seq(12, i requires 0 <= i < 12 => Decimal(i + 1))
  const Models: seq<string> := ["CCSM4", "MRI-CGCM3", "MIROC-ESM"]
  const Years: seq<string> := ["2041-2060", "2061-2080"]
  const Emissions: seq<string> := ["rcp26", "rcp45", "rcp60", "rcp85"]

  const CurrentAxes: seq<(string, seq<string>)> := [("month", PaddedMonths)]
  const LgmAxes: seq<(string, seq<string>)> := [("month", Months), ("model", Models)]
  const FutureAxes: seq<(string, seq<string>)> :=
    [("year", Years), ("emission", Emissions), ("month", Months), ("model", Models)]

  /** An entry as pieces: its name, its file template, its list fields and
      its intermediate URL template. */
  datatype Blueprint = Blueprint(name: string, file: seq<Part>, axes: seq<(string, seq<string>)>, inter: seq<Part>)

  function AxisFields(axes: seq<(string, seq<string>)>): (r: seq<(string, Field)>)
    ensures |r| == |axes| && forall i :: 0 <= i < |r| ==> r[i] == (axes[i].0, Values(axes[i].1))
  {
    seq(|axes|, i requires 0 <= i < |axes| => (axes[i].0, Values(axes[i].1)))
  }

  function Build(b: Blueprint): Entry
  {
    Entry(b.name, [("file_template", Text(Render(b.file)))] + AxisFields(b.axes)
                  + [("intermediate_url", Text(Render(b.inter)))])
  }

  /** `CHELSA_<prefix>{month}<suffix>`. */
  function CurrentFile(prefix: string, suffix: string): seq<Part>
  {
    [Lit(prefix), Hole("month"), Lit(suffix)]
  }

  /** `CHELSA_PMIP_{model}<middle>{month}_1.tif`. */
  function LgmFile(middle: string): seq<Part>
  {
    [Lit("CHELSA_PMIP_"), Hole("model"), Lit(middle), Hole("month"), Lit("_1.tif")]
  }

  /** `<prefix>{model}_{emission}_r1i1p1_g025.nc_{month}_{year}<suffix>`. */
  function FutureFile(prefix: string, suffix: string): seq<Part>
  {
    [Lit(prefix), Hole("model"), Lit("_"), Hole("emission")]
    + [Lit("_r1i1p1_g025.nc_"), Hole("month"), Lit("_"), Hole("year"), Lit(suffix)]
  }

  /** `cmip5/{year}/<variable>/`. */
  function FutureDir(variable: string): seq<Part>
  {
    [Lit("cmip5/"), Hole("year"), Lit("/" + variable + "/")]
  }

  const CurrentMeanTemp := Blueprint("CURRENT_mean_temp", CurrentFile("CHELSA_temp10_", "_1979-2013_V1.2_land.tif"),
                                    CurrentAxes, [Lit("climatologies/temp/integer/temp/")])
  const CurrentMinTemp := Blueprint("CURRENT_min_temp", CurrentFile("CHELSA_tmin10_", "_1979-2013_V1.2_land.tif"),
                                   CurrentAxes, [Lit("climatologies/temp/integer/tmin")])
  const CurrentMaxTemp := Blueprint("CURRENT_max_temp", CurrentFile("CHELSA_tmax10_", "_1979-2013_V1.2_land.tif"),
                                   CurrentAxes, [Lit("climatologies/temp/integer/tmax/")])
  const CurrentPrec := Blueprint("CURRENT_prec", CurrentFile("CHELSA_prec_", "_V1.2_land.tif"),
                                CurrentAxes, [Lit("climatologies/prec/")])
  const LgmPrec := Blueprint("LGM_prec", LgmFile("_prec_"), LgmAxes, [Lit("pmip3/prec/")])
  const LgmMinTemp := Blueprint("LGM_min_temp", LgmFile("_tmin_"), LgmAxes, [Lit("pmip3/tmin/")])
  const LgmMaxTemp := Blueprint("LGM_max_temp", LgmFile("_tmax_"), LgmAxes, [Lit("pmip3/tmax/")])
  const LgmMeanTemp := Blueprint("LGM_mean_temp", LgmFile("_tmean_"), LgmAxes, [Lit("pmip3/tmean/")])
  const FuturePrec := Blueprint("FUTURE_prec", FutureFile("CHELSA_pr_mon_", ".tif"), FutureAxes, FutureDir("prec"))
  const FutureTmax := Blueprint("FUTURE_tmax", FutureFile("CHELSA_tasmax_mon_", "_V1.2.tif"), FutureAxes, FutureDir("tmax"))
  const FutureTmin := Blueprint("FUTURE_tmin", FutureFile("CHELSA_tasmin_mon_", "_V1.2.tif"), FutureAxes, FutureDir("tmin"))
  const FutureTmean := Blueprint("FUTURE_tmean", FutureFile("CHELSA_tas_mon_", "_V1.2.tif"), FutureAxes, FutureDir("temp"))

  /** The entries in catalog order. */
  const Blueprints: seq<Blueprint> := [
    CurrentMeanTemp, CurrentMinTemp, CurrentMaxTemp, CurrentPrec,
    LgmPrec, LgmMinTemp, LgmMaxTemp, LgmMeanTemp,
    FuturePrec, FutureTmax, FutureTmin, FutureTmean
  ]

  /** `SCHEME`. */
  const Scheme: seq<Entry> := seq(|Blueprints|, i requires 0 <= i < |Blueprints| => Build(Blueprints[i]))

  /** Every placeholder of `ps` is among `names`. */
  predicate Covered(ps: seq<Part>, names: set<string>)
  {
    forall n :: n in Holes(ps) ==> n in names
  }

  /** The blueprint makes a consistent entry: sound templates, distinct list
      names that clash with neither template field nor `folder_name`, and
      every placeholder a list field. */
  predicate Wired(b: Blueprint)
  {
    && Sound(b.file) && Sound(b.inter)
    && DistinctKeys(b.axes)
    && (forall i :: 0 <= i < |b.axes| ==>
          b.axes[i].0 != "file_template" && b.axes[i].0 != "intermediate_url" && b.axes[i].0 != "folder_name")
    && Covered(b.file, KeySet(b.axes))
    && Covered(b.inter, KeySet(b.axes))
  }

  lemma {:induction false} AxesOfFields(axes: seq<(string, seq<string>)>)
    ensures Axes(AxisFields(axes)) == axes
  {
    if |axes| > 0 {
      assert AxisFields(axes)[1..] == AxisFields(axes[1..]);
      AxesOfFields(axes[1..]);
      assert axes == [axes[0]] + axes[1..];
    }
  }

  /** The list fields of a built entry are the blueprint's axes, in order. */
  lemma BuildAxes(b: Blueprint)
    ensures Axes(Build(b).fields) == b.axes
  {
    var head := [("file_template", Text(Render(b.file)))];
    var tail := [("intermediate_url", Text(Render(b.inter)))];
    AxesAppend(head + AxisFields(b.axes), tail);
    AxesAppend(head, AxisFields(b.axes));
    AxesOfFields(b.axes);
    assert Axes(head) == [] by { assert head[1..] == []; }
    assert Axes(tail) == [] by { assert tail[1..] == []; }
  }

  lemma BuildKeyed(b: Blueprint)
    requires Wired(b)
    ensures DistinctKeys(Build(b).fields)
  {
    var fs := Build(b).fields;
    var n := |b.axes|;
    assert |fs| == n + 2;
    assert fs[0].0 == "file_template" && fs[n + 1].0 == "intermediate_url";
    assert forall i :: 1 <= i <= n ==> fs[i] == (b.axes[i - 1].0, Values(b.axes[i - 1].1));
  }

  /** Each template field of a built entry holds its rendered pieces. */
  lemma BuildLookup(b: Blueprint)
    requires Wired(b)
    ensures Lookup(Build(b).fields, "file_template") == Some(Text(Render(b.file)))
    ensures Lookup(Build(b).fields, "intermediate_url") == Some(Text(Render(b.inter)))
  {
    var fs := Build(b).fields;
    BuildKeyed(b);
    assert fs[0] == ("file_template", Text(Render(b.file)));
    assert fs[|fs| - 1] == ("intermediate_url", Text(Render(b.inter)));
    LookupKeyed(fs, "file_template", Text(Render(b.file)));
    LookupKeyed(fs, "intermediate_url", Text(Render(b.inter)));
  }

  /** A wired blueprint gives a consistent entry. */
  lemma BuildConsistent(b: Blueprint)
    requires Wired(b)
    ensures DistinctKeys(Build(b).fields) && Consistent(Build(b))
  {
    BuildKeyed(b);
    BuildAxes(b);
    BuildLookup(b);
    RenderScan(b.file, map[]);
    RenderScan(b.inter, map[]);
    assert "folder_name" !in KeySet(b.axes);
  }

  /** The target of one combination of a wired blueprint: its folder and
      the URL joined from the filled templates. */
  lemma BuildTarget(b: Blueprint, vars: map<string, string>)
    requires Wired(b) && vars.Keys == KeySet(b.axes)
    ensures Covered(b.file, vars.Keys) && Covered(b.inter, vars.Keys)
    ensures TargetFor(Build(b), vars)
            == Ok(Target(OutputFolder.GetOutputFolder(FolderArgs(b.name, vars)),
                         Join(Join(BaseUrl, Fill(b.inter, vars)), Fill(b.file, vars))))
  {
    BuildLookup(b);
    RenderScan(b.file, vars);
    RenderScan(b.inter, vars);
    assert "folder_name" !in vars;
  }

  /** No `/` in any literal piece. */
  predicate SlashFreeText(ps: seq<Part>)
  {
    forall i :: 0 <= i < |ps| ==> ps[i].Lit? ==> '/' !in ps[i].text
  }

  lemma {:induction false} FillSlashFree(ps: seq<Part>, vars: map<string, string>)
    requires Covered(ps, vars.Keys) && SlashFreeText(ps)
    requires forall n :: n in Holes(ps) ==> '/' !in vars[n]
    ensures '/' !in Fill(ps, vars)
  {
    if |ps| > 0 {
      assert forall n :: n in Holes(ps[1..]) ==> n in Holes(ps) by {
        forall n | n in Holes(ps[1..]) ensures n in Holes(ps) {
          var i :| 0 <= i < |ps[1..]| && ps[1..][i] == Hole(n);
          assert ps[i + 1] == Hole(n);
        }
      }
      assert SlashFreeText(ps[1..]) by {
        forall i | 0 <= i < |ps[1..]| ensures ps[1..][i].Lit? ==> '/' !in ps[1..][i].text {
          assert ps[1..][i] == ps[i + 1];
        }
      }
      FillSlashFree(ps[1..], vars);
      if ps[0].Hole? {
        assert ps[0].name in Holes(ps);
      }
    }
  }

  /** The values of every list field contain no `/`. */
  predicate SlashFreeValues(axes: seq<(string, seq<string>)>)
  {
    forall i, j :: 0 <= i < |axes| && 0 <= j < |axes[i].1| ==> '/' !in axes[i].1[j]
  }

  /** The name `download` saves a planned URL under is the filled file
      template, provided neither the template text nor the values hold a
      `/`. */
  lemma FileNameOfTarget(b: Blueprint, vars: map<string, string>)
    requires Wired(b) && vars.Keys == KeySet(b.axes)
    requires SlashFreeText(b.file)
    requires forall i :: 0 <= i < |b.axes| ==> vars[b.axes[i].0] in b.axes[i].1
    requires SlashFreeValues(b.axes)
    ensures TargetFor(Build(b), vars).Ok?
    ensures LastSegment(TargetFor(Build(b), vars).value.url) == Fill(b.file, vars)
  {
    BuildTarget(b, vars);
    ValuesSlashFree(b, vars);
    FillSlashFree(b.file, vars);
    LastSegmentOfJoin(Join(BaseUrl, Fill(b.inter, vars)), Fill(b.file, vars));
  }

  /** A combination drawn from slash-free lists binds slash-free values. */
  lemma ValuesSlashFree(b: Blueprint, vars: map<string, string>)
    requires vars.Keys == KeySet(b.axes)
    requires forall i :: 0 <= i < |b.axes| ==> vars[b.axes[i].0] in b.axes[i].1
    requires SlashFreeValues(b.axes)
    ensures forall n :: n in vars ==> '/' !in vars[n]
  {
    forall n | n in vars ensures '/' !in vars[n] {
      assert n in KeySet(b.axes);
      var i :| 0 <= i < |b.axes| && b.axes[i].0 == n;
      var j :| 0 <= j < |b.axes[i].1| && b.axes[i].1[j] == vars[n];
    }
  }

  /** The intermediate URL template opens with relative literal text. */
  predicate Relative(ps: seq<Part>)
  {
    |ps| > 0 && ps[0].Lit? && |ps[0].text| > 0 && ps[0].text[0] != '/'
  }

  /** Everything the catalog's blueprints are proved to satisfy. */
  predicate WellBuilt(b: Blueprint)
  {
    Wired(b) && SlashFreeText(b.file) && SlashFreeValues(b.axes) && Relative(b.inter)
  }

  /** A part list is sound and covered when each part is, one by one. */
  lemma PartsWired(ps: seq<Part>, names: set<string>)
    requires forall i :: 0 <= i < |ps| ==> SoundPart(ps[i]) && (ps[i].Hole? ==> ps[i].name in names)
    ensures Sound(ps) && Covered(ps, names)
  {
  }

  lemma {:induction false} DigitsSlashFree(s: string)
    requires forall i :: 0 <= i < |s| ==> IsDigit(s[i])
    ensures '/' !in s
  {
    forall i | 0 <= i < |s| ensures s[i] != '/' {
      assert IsDigit(s[i]);
    }
  }

  /** No month, model, period or scenario name holds a `/`. */
  lemma AxesSlashFree()
    ensures SlashFreeValues(CurrentAxes) && SlashFreeValues(LgmAxes) && SlashFreeValues(FutureAxes)
  {
    forall j | 0 <= j < 12 ensures '/' !in PaddedMonths[j] && '/' !in Months[j] {
      DigitsSlashFree(PaddedMonths[j]);
      DigitsSlashFree(Months[j]);
    }
    assert forall j :: 0 <= j < |Models| ==> '/' !in Models[j];
    assert forall j :: 0 <= j < |Years| ==> '/' !in Years[j];
    assert forall j :: 0 <= j < |Emissions| ==> '/' !in Emissions[j];
    assert forall i :: 0 <= i < |FutureAxes| ==>
      FutureAxes[i].1 == Years || FutureAxes[i].1 == Emissions || FutureAxes[i].1 == Months || FutureAxes[i].1 == Models;
    assert forall i :: 0 <= i < |LgmAxes| ==> LgmAxes[i].1 == Months || LgmAxes[i].1 == Models;
  }

  lemma CurrentBuilt(name: string, prefix: string, suffix: string, dir: string)
    requires Plain(prefix) && Plain(suffix) && Plain(dir)
    requires '/' !in prefix && '/' !in suffix && |dir| > 0 && dir[0] != '/'
    ensures WellBuilt(Blueprint(name, CurrentFile(prefix, suffix), CurrentAxes, [Lit(dir)]))
  {
    var names := KeySet(CurrentAxes);
    assert "month" in names by { assert CurrentAxes[0].0 == "month"; }
    var file := CurrentFile(prefix, suffix);
    forall i | 0 <= i < |file| ensures SoundPart(file[i]) && (file[i].Hole? ==> file[i].name in names) {
      if i == 1 { assert ValidName("month"); }
    }
    PartsWired(file, names);
    PartsWired([Lit(dir)], names);
    AxesSlashFree();
  }

  lemma LgmBuilt(name: string, middle: string, dir: string)
    requires Plain(middle) && Plain(dir)
    requires '/' !in middle && |dir| > 0 && dir[0] != '/'
    ensures WellBuilt(Blueprint(name, LgmFile(middle), LgmAxes, [Lit(dir)]))
  {
    var names := KeySet(LgmAxes);
    assert "month" in names && "model" in names by {
      assert LgmAxes[0].0 == "month" && LgmAxes[1].0 == "model";
    }
    var file := LgmFile(middle);
    forall i | 0 <= i < |file| ensures SoundPart(file[i]) && (file[i].Hole? ==> file[i].name in names) {
      if i == 0 { assert Plain("CHELSA_PMIP_"); }
      else if i == 1 { assert ValidName("model"); }
      else if i == 3 { assert ValidName("month"); }
      else if i == 4 { assert Plain("_1.tif"); }
    }
    PartsWired(file, names);
    PartsWired([Lit(dir)], names);
    assert SlashFreeText(file) by {
      assert '/' !in "CHELSA_PMIP_" && '/' !in "_1.tif";
    }
    AxesSlashFree();
  }

  lemma FutureNames()
    ensures "year" in KeySet(FutureAxes) && "emission" in KeySet(FutureAxes)
    ensures "month" in KeySet(FutureAxes) && "model" in KeySet(FutureAxes)
  {
    assert FutureAxes[0].0 == "year" && FutureAxes[1].0 == "emission";
    assert FutureAxes[2].0 == "month" && FutureAxes[3].0 == "model";
  }

  /** Sound, covered by `names` and free of `/` in its text. */
  predicate PartsOk(ps: seq<Part>, names: set<string>)
  {
    Sound(ps) && Covered(ps, names) && SlashFreeText(ps)
  }

  lemma PartsOkAppend(a: seq<Part>, b: seq<Part>, names: set<string>)
    requires PartsOk(a, names) && PartsOk(b, names)
    ensures PartsOk(a + b, names)
  {
    var ab := a + b;
    forall i | 0 <= i < |ab| ensures SoundPart(ab[i]) && (ab[i].Lit? ==> '/' !in ab[i].text) {
      if i < |a| { assert ab[i] == a[i]; } else { assert ab[i] == b[i - |a|]; }
    }
    forall n | n in Holes(ab) ensures n in names {
      var i :| 0 <= i < |ab| && ab[i] == Hole(n);
      if i < |a| { assert a[i] == Hole(n); } else { assert b[i - |a|] == Hole(n); }
    }
  }

  lemma FixedTexts()
    ensures Plain("_") && '/' !in "_"
    ensures Plain("_r1i1p1_g025.nc_") && '/' !in "_r1i1p1_g025.nc_"
  {
  }

  lemma FixedNames()
    ensures ValidName("model") && ValidName("emission") && ValidName("month") && ValidName("year")
  {
  }

  lemma FutureHeadOk(prefix: string)
    requires Plain(prefix) && '/' !in prefix
    ensures PartsOk([Lit(prefix), Hole("model"), Lit("_"), Hole("emission")], KeySet(FutureAxes))
  {
    var names := KeySet(FutureAxes);
    FutureNames();
    var head := [Lit(prefix), Hole("model"), Lit("_"), Hole("emission")];
    FixedTexts();
    FixedNames();
    forall i | 0 <= i < |head|
      ensures SoundPart(head[i]) && (head[i].Hole? ==> head[i].name in names) && (head[i].Lit? ==> '/' !in head[i].text)
    {
    }
    PartsWired(head, names);
  }

  lemma FutureTailOk(suffix: string)
    requires Plain(suffix) && '/' !in suffix
    ensures PartsOk([Lit("_r1i1p1_g025.nc_"), Hole("month"), Lit("_"), Hole("year"), Lit(suffix)], KeySet(FutureAxes))
  {
    var names := KeySet(FutureAxes);
    FutureNames();
    var tail := [Lit("_r1i1p1_g025.nc_"), Hole("month"), Lit("_"), Hole("year"), Lit(suffix)];
    FixedTexts();
    FixedNames();
    forall i | 0 <= i < |tail|
      ensures SoundPart(tail[i]) && (tail[i].Hole? ==> tail[i].name in names) && (tail[i].Lit? ==> '/' !in tail[i].text)
    {
    }
    PartsWired(tail, names);
  }

  lemma FutureFileBuilt(prefix: string, suffix: string)
    requires Plain(prefix) && Plain(suffix) && '/' !in prefix && '/' !in suffix
    ensures PartsOk(FutureFile(prefix, suffix), KeySet(FutureAxes))
  {
    FutureHeadOk(prefix);
    FutureTailOk(suffix);
    PartsOkAppend([Lit(prefix), Hole("model"), Lit("_"), Hole("emission")],
                  [Lit("_r1i1p1_g025.nc_"), Hole("month"), Lit("_"), Hole("year"), Lit(suffix)], KeySet(FutureAxes));
  }

  lemma FutureDirBuilt(variable: string)
    requires Plain(variable)
    ensures Sound(FutureDir(variable)) && Covered(FutureDir(variable), KeySet(FutureAxes))
    ensures Relative(FutureDir(variable))
  {
    var names := KeySet(FutureAxes);
    FutureNames();
    var dir := FutureDir(variable);
    forall i | 0 <= i < |dir| ensures SoundPart(dir[i]) && (dir[i].Hole? ==> dir[i].name in names) {
      if i == 0 { assert Plain("cmip5/"); }
      else if i == 1 { assert ValidName("year"); }
      else { assert Plain("/" + variable + "/"); }
    }
    PartsWired(dir, names);
  }

  lemma FutureBuilt(name: string, prefix: string, suffix: string, variable: string)
    requires Plain(prefix) && Plain(suffix) && Plain(variable)
    requires '/' !in prefix && '/' !in suffix
    ensures WellBuilt(Blueprint(name, FutureFile(prefix, suffix), FutureAxes, FutureDir(variable)))
  {
    FutureFileBuilt(prefix, suffix);
    FutureDirBuilt(variable);
    AxesSlashFree();
    assert DistinctKeys(FutureAxes);
  }

  /** `WellBuilt(Blueprints[i])`, one entry at a time: checking the literal
      text of several entries at once is too costly for the solver. */
  lemma BuiltAt(i: nat)
    requires i < |Blueprints|
    ensures WellBuilt(Blueprints[i])
  {
    if i < 4 {
      CurrentBuiltAt(i);
    } else if i < 8 {
      LgmBuiltAt(i);
    } else {
      FutureBuiltAt(i);
    }
  }

  lemma CurrentBuiltAt(i: nat)
    requires i < 4
    ensures WellBuilt(Blueprints[i])
  {
    if i == 0 {
      CurrentMeanTempBuilt();
    } else if i == 1 {
      CurrentMinTempBuilt();
    } else if i == 2 {
      CurrentMaxTempBuilt();
    } else {
      CurrentPrecBuilt();
    }
  }

  lemma LgmBuiltAt(i: nat)
    requires 4 <= i < 8
    ensures WellBuilt(Blueprints[i])
  {
    if i == 4 {
      LgmPrecBuilt();
    } else if i == 5 {
      LgmMinTempBuilt();
    } else if i == 6 {
      LgmMaxTempBuilt();
    } else {
      LgmMeanTempBuilt();
    }
  }

  lemma FutureBuiltAt(i: nat)
    requires 8 <= i < 12
    ensures WellBuilt(Blueprints[i])
  {
    if i == 8 {
      FuturePrecBuilt();
    } else if i == 9 {
      FutureTmaxBuilt();
    } else if i == 10 {
      FutureTminBuilt();
    } else {
      FutureTmeanBuilt();
    }
  }

  /** The literal text the current entries share. */
  lemma CurrentTexts()
    ensures Plain("_1979-2013_V1.2_land.tif") && '/' !in "_1979-2013_V1.2_land.tif"
    ensures Plain("_V1.2_land.tif") && '/' !in "_V1.2_land.tif"
  {
  }

  lemma CurrentMeanTempBuilt() ensures WellBuilt(CurrentMeanTemp) {
    CurrentTexts();
    CurrentBuilt("CURRENT_mean_temp", "CHELSA_temp10_", "_1979-2013_V1.2_land.tif", "climatologies/temp/integer/temp/");
  }
  lemma CurrentMinTempBuilt() ensures WellBuilt(CurrentMinTemp) {
    CurrentTexts();
    CurrentBuilt("CURRENT_min_temp", "CHELSA_tmin10_", "_1979-2013_V1.2_land.tif", "climatologies/temp/integer/tmin");
  }
  lemma CurrentMaxTempBuilt() ensures WellBuilt(CurrentMaxTemp) {
    CurrentTexts();
    CurrentBuilt("CURRENT_max_temp", "CHELSA_tmax10_", "_1979-2013_V1.2_land.tif", "climatologies/temp/integer/tmax/");
  }
  lemma CurrentPrecBuilt() ensures WellBuilt(CurrentPrec) {
    CurrentTexts();
    CurrentBuilt("CURRENT_prec", "CHELSA_prec_", "_V1.2_land.tif", "climatologies/prec/");
  }
  lemma LgmPrecBuilt() ensures WellBuilt(LgmPrec) {
    LgmBuilt("LGM_prec", "_prec_", "pmip3/prec/");
  }
  lemma LgmMinTempBuilt() ensures WellBuilt(LgmMinTemp) {
    LgmBuilt("LGM_min_temp", "_tmin_", "pmip3/tmin/");
  }
  lemma LgmMaxTempBuilt() ensures WellBuilt(LgmMaxTemp) {
    LgmBuilt("LGM_max_temp", "_tmax_", "pmip3/tmax/");
  }
  lemma LgmMeanTempBuilt() ensures WellBuilt(LgmMeanTemp) {
    LgmBuilt("LGM_mean_temp", "_tmean_", "pmip3/tmean/");
  }
  lemma FuturePrecBuilt() ensures WellBuilt(FuturePrec) {
    FutureBuilt("FUTURE_prec", "CHELSA_pr_mon_", ".tif", "prec");
  }
  lemma FutureTmaxBuilt() ensures WellBuilt(FutureTmax) {
    FutureBuilt("FUTURE_tmax", "CHELSA_tasmax_mon_", "_V1.2.tif", "tmax");
  }
  lemma FutureTminBuilt() ensures WellBuilt(FutureTmin) {
    FutureBuilt("FUTURE_tmin", "CHELSA_tasmin_mon_", "_V1.2.tif", "tmin");
  }
  lemma FutureTmeanBuilt() ensures WellBuilt(FutureTmean) {
    FutureBuilt("FUTURE_tmean", "CHELSA_tas_mon_", "_V1.2.tif", "temp");
  }

  /** `WellBuilt` for every entry of the catalog. */
  lemma SchemeBuilt()
    ensures forall i :: 0 <= i < |Blueprints| ==> WellBuilt(Blueprints[i])
  {
    forall i | 0 <= i < |Blueprints| ensures WellBuilt(Blueprints[i]) {
      BuiltAt(i);
    }
  }

  lemma AxesCounts()
    ensures Count(CurrentAxes) == 12 && Count(LgmAxes) == 36 && Count(FutureAxes) == 288
  {
    assert CurrentAxes[1..] == [];
    assert LgmAxes[1..] == [("model", Models)] && LgmAxes[1..][1..] == [];
    var f1 := FutureAxes[1..];
    assert f1 == [("emission", Emissions), ("month", Months), ("model", Models)];
    assert f1[1..] == [("month", Months), ("model", Models)];
    assert f1[1..][1..] == [("model", Models)] && f1[1..][1..][1..] == [];
  }

  /** The list fields of each family. */
  lemma BlueprintAxes(i: nat)
    requires i < |Blueprints|
    ensures Blueprints[i].axes == (if i < 4 then CurrentAxes else if i < 8 then LgmAxes else FutureAxes)
  {
    if i == 0 {} else if i == 1 {} else if i == 2 {} else if i == 3 {}
    else if i == 4 {} else if i == 5 {} else if i == 6 {} else if i == 7 {}
    else if i == 8 {} else if i == 9 {} else if i == 10 {} else {}
  }

  /** Each entry asks for the product of its list lengths: 12 months for a
      current climatology, 12 months by 3 models for a glacial dataset, and
      2 periods by 4 scenarios by 12 months by 3 models for a projection. */
  lemma SchemeFiles(i: nat)
    requires i < |Scheme|
    ensures Files(Scheme[i]) == Count(Blueprints[i].axes)
    ensures Files(Scheme[i]) == if i < 4 then 12 else if i < 8 then 36 else 288
  {
    BuildAxes(Blueprints[i]);
    BlueprintAxes(i);
    AxesCounts();
  }

  lemma {:induction false} TotalAppend(a: seq<Entry>, b: seq<Entry>)
    ensures Total(a + b) == Total(a) + Total(b)
    decreases |b|
  {
    if |b| == 0 {
      assert a + b == a;
    } else {
      var n := |b| - 1;
      assert (a + b)[..|a + b| - 1] == a + b[..n];
      TotalAppend(a, b[..n]);
    }
  }

  lemma {:induction false} TotalUniform(s: seq<Entry>, n: nat)
    requires forall i :: 0 <= i < |s| ==> Files(s[i]) == n
    ensures Total(s) == |s| * n
  {
    if |s| > 0 {
      var m := |s| - 1;
      assert forall i :: 0 <= i < m ==> s[..m][i] == s[i];
      TotalUniform(s[..m], n);
      assert (|s| - 1) * n + n == |s| * n;
    }
  }

  lemma SliceTotal(s: seq<Entry>, lo: nat, hi: nat, n: nat)
    requires lo <= hi <= |s|
    requires forall i :: lo <= i < hi ==> Files(s[i]) == n
    ensures Total(s[lo..hi]) == (hi - lo) * n
  {
    assert forall i :: 0 <= i < hi - lo ==> s[lo..hi][i] == s[lo + i];
    TotalUniform(s[lo..hi], n);
  }

  lemma SplitThree<T>(s: seq<T>, i: nat, j: nat)
    requires i <= j <= |s|
    ensures s == s[0..i] + s[i..j] + s[j..|s|]
  {
  }

  lemma TotalThirds(a: seq<Entry>, b: seq<Entry>, c: seq<Entry>)
    ensures Total(a + b + c) == Total(a) + Total(b) + Total(c)
  {
    TotalAppend(a, b);
    TotalAppend(a + b, c);
  }

  /** Any twelve entries with the catalog's family sizes ask for 1344 files:
      48 current, 144 glacial and 1152 future ones. */
  lemma FamilyTotal(s: seq<Entry>)
    requires |s| == 12
    requires forall i :: 0 <= i < 4 ==> Files(s[i]) == 12
    requires forall i :: 4 <= i < 8 ==> Files(s[i]) == 36
    requires forall i :: 8 <= i < 12 ==> Files(s[i]) == 288
    ensures Total(s) == 1344
  {
    SliceTotal(s, 0, 4, 12);
    SliceTotal(s, 4, 8, 36);
    SliceTotal(s, 8, 12, 288);
    SplitThree(s, 4, 8);
    TotalThirds(s[0..4], s[4..8], s[8..12]);
  }

  /** The catalog asks for 1344 files. */
  lemma SchemeTotal()
    ensures Total(Scheme) == 1344
  {
    forall i | 0 <= i < 12 ensures Files(Scheme[i]) == if i < 4 then 12 else if i < 8 then 36 else 288 {
      SchemeFiles(i);
    }
    FamilyTotal(Scheme);
  }

  /** Every entry of the catalog plans all its combinations. */
  lemma EntryPlans(i: nat)
    requires i < |Scheme|
    ensures EntryTargets(Scheme[i]).Ok?
  {
    BuiltAt(i);
    BuildConsistent(Blueprints[i]);
    ConsistentPlans(Scheme[i]);
  }

  lemma AllEntriesPlan()
    ensures forall i :: 0 <= i < |Scheme| ==> EntryTargets(Scheme[i]).Ok?
  {
    forall i | 0 <= i < |Scheme| ensures EntryTargets(Scheme[i]).Ok? {
      EntryPlans(i);
    }
  }

  lemma RunsToTotal(s: seq<Entry>)
    requires forall i :: 0 <= i < |s| ==> EntryTargets(s[i]).Ok?
    ensures Run(s).Ok? && |Run(s).value| == Total(s)
  {
    RunCount(s);
  }

  /** `main` over the catalog raises nothing, and the count it prints is
      1344. */
  lemma SchemePlans()
    ensures Run(Scheme).Ok? && |Run(Scheme).value| == 1344
  {
    AllEntriesPlan();
    SchemeTotal();
    RunsToTotal(Scheme);
  }

  /** The k-th download planned for a well-built entry: the k-th
      combination of its list fields in odometer order (the last list
      varies fastest), the folder of that combination, the URL joined from
      both filled templates, and a saved file named after the filled file
      template. */
  lemma PlannedTarget(b: Blueprint, k: nat)
    requires WellBuilt(b) && k < Count(b.axes)
    ensures EntryTargets(Build(b)).Ok? && |EntryTargets(Build(b)).value| == Count(b.axes)
    ensures var vars := Product(b.axes)[k];
            && vars == Select(b.axes, Digits(b.axes, k))
            && vars.Keys == KeySet(b.axes)
            && (forall i :: 0 <= i < |b.axes| ==> vars[b.axes[i].0] in b.axes[i].1)
            && Covered(b.file, vars.Keys) && Covered(b.inter, vars.Keys)
            && EntryTargets(Build(b)).value[k]
               == Target(OutputFolder.Root + ("/" + b.name) + Segment(vars, "model") + Segment(vars, "year")
                           + Segment(vars, "emission") + "/",
                         Join(Join(BaseUrl, Fill(b.inter, vars)), Fill(b.file, vars)))
            && LastSegment(EntryTargets(Build(b)).value[k].url) == Fill(b.file, vars)
  {
    var e := Build(b);
    var vars := Product(b.axes)[k];
    BuildConsistent(b);
    ConsistentPlans(e);
    BuildAxes(b);
    ProductIsOdometer(b.axes, k);
    ProductBinds(b.axes, k);
    assert Steps(e)[k] == TargetFor(e, vars);
    BuildTarget(b, vars);
    FolderLayout(b.name, vars);
    FileNameOfTarget(b, vars);
  }

  /** The list fields of the three families, as key sets. */
  lemma FamilyKeys()
    ensures KeySet(CurrentAxes) == {"month"}
    ensures KeySet(LgmAxes) == {"month", "model"}
    ensures KeySet(FutureAxes) == {"year", "emission", "month", "model"}
  {
    assert CurrentAxes[0].0 == "month";
    assert forall i | 0 <= i < |CurrentAxes| :: CurrentAxes[i].0 == "month";
    assert LgmAxes[0].0 == "month" && LgmAxes[1].0 == "model";
    assert forall i | 0 <= i < |LgmAxes| :: LgmAxes[i].0 in {"month", "model"};
    FutureNames();
    assert forall i | 0 <= i < |FutureAxes| :: FutureAxes[i].0 in {"year", "emission", "month", "model"};
  }

  /** The folder of a combination binding only the month. */
  lemma MonthlyPath(vars: map<string, string>, name: string)
    requires vars.Keys == {"month"}
    ensures OutputFolder.Root + ("/" + name) + Segment(vars, "model") + Segment(vars, "year")
              + Segment(vars, "emission") + "/"
            == OutputFolder.Root + ("/" + name) + "/"
  {
    assert "model"[2] != "month"[2] && "year"[0] != "month"[0] && "emission"[0] != "month"[0];
    var head := OutputFolder.Root + ("/" + name);
    assert head + "" + "" + "" + "/" == head + "/";
  }

  /** The folder of a combination binding the month and the model. */
  lemma ModelPath(vars: map<string, string>, name: string)
    requires vars.Keys == {"month", "model"}
    ensures OutputFolder.Root + ("/" + name) + Segment(vars, "model") + Segment(vars, "year")
              + Segment(vars, "emission") + "/"
            == OutputFolder.Root + ("/" + name) + ("/" + vars["model"]) + "/"
  {
    assert "year"[0] != "month"[0] && "year"[0] != "model"[0];
    assert "emission"[0] != "month"[0] && "emission"[0] != "model"[0];
    var head := OutputFolder.Root + ("/" + name) + ("/" + vars["model"]);
    assert head + "" + "" + "/" == head + "/";
  }

  /** An entry whose only list field is the month (the current
      climatologies) saves every file directly under the entry's folder. */
  lemma MonthlyFolder(b: Blueprint, k: nat)
    requires WellBuilt(b) && KeySet(b.axes) == {"month"} && k < Count(b.axes)
    ensures EntryTargets(Build(b)).Ok?
    ensures |EntryTargets(Build(b)).value| == Count(b.axes)
    ensures EntryTargets(Build(b)).value[k].folder == OutputFolder.Root + ("/" + b.name) + "/"
  {
    PlannedTarget(b, k);
    MonthlyPath(Product(b.axes)[k], b.name);
  }

  /** An entry listing months and models (the glacial datasets) saves each
      file under the entry's folder and then its model's. */
  lemma ModelFolder(b: Blueprint, k: nat)
    requires WellBuilt(b) && KeySet(b.axes) == {"month", "model"} && k < Count(b.axes)
    ensures EntryTargets(Build(b)).Ok?
    ensures |EntryTargets(Build(b)).value| == Count(b.axes)
    ensures var vars := Product(b.axes)[k];
            && "model" in vars
            && EntryTargets(Build(b)).value[k].folder
               == OutputFolder.Root + ("/" + b.name) + ("/" + vars["model"]) + "/"
  {
    PlannedTarget(b, k);
    ModelPath(Product(b.axes)[k], b.name);
  }

  /** An entry listing periods, scenarios, months and models (the
      projections) saves each file under the entry's folder, then its model,
      its period and its scenario: the order of the folder template, not
      that of the entry's fields. */
  lemma ProjectionFolder(b: Blueprint, k: nat)
    requires WellBuilt(b) && KeySet(b.axes) == {"year", "emission", "month", "model"} && k < Count(b.axes)
    ensures EntryTargets(Build(b)).Ok?
    ensures |EntryTargets(Build(b)).value| == Count(b.axes)
    ensures var vars := Product(b.axes)[k];
            && "model" in vars && "year" in vars && "emission" in vars
            && EntryTargets(Build(b)).value[k].folder
               == OutputFolder.Root + ("/" + b.name) + ("/" + vars["model"]) + ("/" + vars["year"])
                  + ("/" + vars["emission"]) + "/"
  {
    PlannedTarget(b, k);
  }

  /** A current climatology's URL is the base URL, its directory, a `/`
      when the directory does not already end in one, and the file name:
      the join supplies the separator missing from the minimum temperature
      directory. */
  lemma CurrentUrl(b: Blueprint, prefix: string, suffix: string, dir: string, k: nat)
    requires b.file == CurrentFile(prefix, suffix) && b.inter == [Lit(dir)] && |prefix| > 0
    requires WellBuilt(b) && k < Count(b.axes)
    ensures EntryTargets(Build(b)).Ok? && |EntryTargets(Build(b)).value| == Count(b.axes)
    ensures var vars := Product(b.axes)[k];
            && "month" in vars
            && EntryTargets(Build(b)).value[k].url
               == BaseUrl + dir + (if dir[|dir| - 1] == '/' then "" else "/") + (prefix + vars["month"] + suffix)
  {
    PlannedTarget(b, k);
    var vars := Product(b.axes)[k];
    assert '/' !in prefix by {
      assert b.file[0] == Lit(prefix);
    }
    CurrentHole(prefix, suffix);
    assert "month" in vars;
    FillCurrent(prefix, suffix, vars);
    FillDir(dir, vars);
    CurrentJoin(dir, prefix + vars["month"] + suffix);
  }

  lemma CurrentHole(prefix: string, suffix: string)
    ensures "month" in Holes(CurrentFile(prefix, suffix))
  {
    assert CurrentFile(prefix, suffix)[1] == Hole("month");
  }

  lemma FillCurrent(prefix: string, suffix: string, vars: map<string, string>)
    requires "month" in vars
    ensures Covered(CurrentFile(prefix, suffix), vars.Keys)
    ensures Fill(CurrentFile(prefix, suffix), vars) == prefix + vars["month"] + suffix
  {
    var ps := CurrentFile(prefix, suffix);
    assert ps[1..][1..][1..] == [];
    assert Fill(ps[1..][1..], vars) == suffix;
    assert Fill(ps[1..], vars) == vars["month"] + suffix;
    assert prefix + (vars["month"] + suffix) == prefix + vars["month"] + suffix;
  }

  lemma FillDir(dir: string, vars: map<string, string>)
    ensures Covered([Lit(dir)], vars.Keys)
    ensures Fill([Lit(dir)], vars) == dir
  {
    assert [Lit(dir)][1..] == [];
  }

  /** Joining a relative directory and then a relative file name onto the
      base URL. */
  lemma CurrentJoin(dir: string, file: string)
    requires |dir| > 0 && dir[0] != '/' && |file| > 0 && file[0] != '/'
    ensures Join(Join(BaseUrl, dir), file) == BaseUrl + dir + (if dir[|dir| - 1] == '/' then "" else "/") + file
  {
    assert Join(BaseUrl, dir) == BaseUrl + dir;
    var a := BaseUrl + dir;
    assert a[|a| - 1] == dir[|dir| - 1];
  }

  /** The minimum temperature climatology's directory lacks its trailing
      `/`, and its URLs still have one between directory and file. */
  lemma MinTempUrl(k: nat)
    requires k < 12
    ensures EntryTargets(Build(CurrentMinTemp)).Ok? && |EntryTargets(Build(CurrentMinTemp)).value| == 12
    ensures var vars := Product(CurrentAxes)[k];
            && "month" in vars
            && EntryTargets(Build(CurrentMinTemp)).value[k].url
               == BaseUrl + "climatologies/temp/integer/tmin" + "/"
                  + ("CHELSA_tmin10_" + vars["month"] + "_1979-2013_V1.2_land.tif")
  {
    AxesCounts();
    CurrentMinTempBuilt();
    var dir := "climatologies/temp/integer/tmin";
    CurrentUrl(CurrentMinTemp, "CHELSA_tmin10_", "_1979-2013_V1.2_land.tif", dir, k);
    assert dir[|dir| - 1] != '/';
  }
}

=== FILE: templates.dfy ===
/** `{name}` templates: the placeholder scan `re.findall(r'\{([a-zA-Z_]+)\}', t)`
    and `str.format(**vars)` restricted to `{name}` fields. Templates are also
    described structurally, as a sequence of literal text and placeholders,
    which is the reference the two scanners are proved against. */
module Templates {
  import opened Wrappers

  /** `str.format` raises `KeyError` for an unbound name and `ValueError`
      (or, for `{}`, `IndexError`) for a brace that does not open or close a
      `{name}` field; the model reports the latter group as `Malformed`. */
  datatype FormatError = MissingParameter(name: string) | Malformed

  /** The characters of `[a-zA-Z_]`. */
  predicate IsNameChar(c: char)
  {
    ('a' <= c <= 'z') || ('A' <= c <= 'Z') || c == '_'
  }

  /** A placeholder name: one or more of `[a-zA-Z_]`. */
  predicate ValidName(s: string)
  {
    |s| > 0 && forall i :: 0 <= i < |s| ==> IsNameChar(s[i])
  }

  /** Text with no brace in it. */
  predicate Plain(s: string)
  {
    forall i :: 0 <= i < |s| ==> s[i] != '{' && s[i] != '}'
  }

  /** Length of the longest prefix of `s` made of name characters. */
  function NameRun(s: string): (n: nat)
    ensures n <= |s|
    ensures forall i :: 0 <= i < n ==> IsNameChar(s[i])
    ensures n < |s| ==> !IsNameChar(s[n])
  {
    if |s| == 0 || !IsNameChar(s[0]) then 0 else 1 + NameRun(s[1..])
  }

  /** `s` opens with a `{name}` token. Because `}` is not a name character,
      the regular expression has no other way to match at this position. */
  predicate TokenAt(s: string)
  {
    && |s| > 0
    && s[0] == '{'
    && 0 < NameRun(s[1..])
    && NameRun(s[1..]) + 1 < |s|
    && s[NameRun(s[1..]) + 1] == '}'
  }

  /** The name inside the token that opens `s`. */
  function TokenName(s: string): (name: string)
    requires TokenAt(s)
    ensures ValidName(name)
    ensures |name| + 2 <= |s| && s[..|name| + 2] == "{" + name + "}"
  {
    s[1..NameRun(s[1..]) + 1]
  }

  /** The `{name}` token of a valid name is recognised as such, whatever
      follows it. */
  lemma TokenOf(name: string, rest: string)
    requires ValidName(name)
    ensures TokenAt("{" + name + "}" + rest)
    ensures TokenName("{" + name + "}" + rest) == name
    ensures ("{" + name + "}" + rest)[|name| + 2..] == rest
  {
    var s := "{" + name + "}" + rest;
    assert s[1..] == name + ("}" + rest);
    NameRunOfName(name, "}" + rest);
  }

  lemma {:induction false} NameRunOfName(name: string, rest: string)
    requires forall i :: 0 <= i < |name| ==> IsNameChar(name[i])
    requires |rest| > 0 && !IsNameChar(rest[0])
    ensures NameRun(name + rest) == |name|
  {
    if |name| > 0 {
      assert (name + rest)[1..] == name[1..] + rest;
      NameRunOfName(name[1..], rest);
    } else {
      assert name + rest == rest;
    }
  }

  /** `re.findall(r'\{([a-zA-Z_]+)\}', s)`: the names of the `{name}`
      tokens, left to right, without overlap. */
  function FindFields(s: string): (r: seq<string>)
    ensures forall i :: 0 <= i < |r| ==> ValidName(r[i])
  {
    if |s| == 0 then []
    else if TokenAt(s) then [TokenName(s)] + FindFields(s[|TokenName(s)| + 2..])
    else FindFields(s[1..])
  }

  /** Every brace of `t` belongs to a `{name}` token, so that `str.format`
      reads only `{name}` fields from it. */
  predicate WellFormed(t: string)
  {
    if |t| == 0 then true
    else if TokenAt(t) then WellFormed(t[|TokenName(t)| + 2..])
    else t[0] != '{' && t[0] != '}' && WellFormed(t[1..])
  }

  function Prepend(p: string, r: Result<string, FormatError>): Result<string, FormatError>
  {
    match r
    case Ok(s) => Ok(p + s)
    case Err(e) => Err(e)
  }

  /** `t.format(**vars)` for a template whose fields are `{name}`: literal
      text is copied, each field is replaced by its value, and the first
      problem met scanning left to right is raised. */
  function Format(t: string, vars: map<string, string>): (r: Result<string, FormatError>)
    ensures r.Err? && r.error.MissingParameter? ==>
              r.error.name !in vars && r.error.name in FindFields(t)
  {
    if |t| == 0 then Ok("")
    else if TokenAt(t) then
      var name := TokenName(t);
      if name !in vars then Err(MissingParameter(name))
      else Prepend(vars[name], Format(t[|name| + 2..], vars))
    else if t[0] == '{' || t[0] == '}' then Err(Malformed)
    else Prepend([t[0]], Format(t[1..], vars))
  }

  /** `format` succeeds exactly when the template is well formed and every
      name `findall` reports is bound. */
  lemma {:induction false} FormatOkIff(t: string, vars: map<string, string>)
    ensures Format(t, vars).Ok? <==>
              WellFormed(t) && forall f :: f in FindFields(t) ==> f in vars
  {
    if |t| > 0 {
      if TokenAt(t) {
        FormatOkIff(t[|TokenName(t)| + 2..], vars);
      } else if t[0] != '{' && t[0] != '}' {
        FormatOkIff(t[1..], vars);
      }
    }
  }

  /** Bindings for names the template does not mention have no effect:
      two maps that agree on the names `findall` reports give the same
      result. */
  lemma {:induction false} FormatIgnoresOtherNames(t: string, v1: map<string, string>, v2: map<string, string>)
    requires forall f :: f in FindFields(t) ==> (f in v1 <==> f in v2)
    requires forall f :: f in FindFields(t) && f in v1 && f in v2 ==> v1[f] == v2[f]
    ensures Format(t, v1) == Format(t, v2)
  {
    if |t| > 0 {
      if TokenAt(t) {
        FormatIgnoresOtherNames(t[|TokenName(t)| + 2..], v1, v2);
      } else if t[0] != '{' && t[0] != '}' {
        FormatIgnoresOtherNames(t[1..], v1, v2);
      }
    }
  }

  /** When no value contains a brace, a successful `format` leaves no brace,
      hence no `{...}` token, in its result. */
  lemma {:induction false} FormatLeavesNoBrace(t: string, vars: map<string, string>)
    requires forall f :: f in vars ==> Plain(vars[f])
    requires Format(t, vars).Ok?
    ensures Plain(Format(t, vars).value)
  {
    if |t| > 0 {
      if TokenAt(t) {
        FormatLeavesNoBrace(t[|TokenName(t)| + 2..], vars);
      } else {
        FormatLeavesNoBrace(t[1..], vars);
      }
    }
  }

  /** Brace-free text in front of a template is neither a field nor an
      error for either scanner. */
  lemma {:induction false} PlainPrefix(p: string, t: string, vars: map<string, string>)
    requires Plain(p)
    ensures FindFields(p + t) == FindFields(t)
    ensures WellFormed(p + t) == WellFormed(t)
    ensures Format(p + t, vars) == Prepend(p, Format(t, vars))
  {
    if |p| == 0 {
      assert p + t == t;
      match Format(t, vars)
      case Ok(x) => assert p + x == x;
      case Err(_) =>
    } else {
      var s := p + t;
      assert s[1..] == p[1..] + t;
      PlainPrefix(p[1..], t, vars);
      match Format(t, vars)
      case Ok(x) => assert [p[0]] + (p[1..] + x) == p + x;
      case Err(_) =>
    }
  }

  /** A `{name}` token in front of a template is read as that field. */
  lemma TokenPrefix(name: string, t: string, vars: map<string, string>)
    requires ValidName(name)
    ensures FindFields("{" + name + "}" + t) == [name] + FindFields(t)
    ensures WellFormed("{" + name + "}" + t) == WellFormed(t)
    ensures Format("{" + name + "}" + t, vars)
            == if name in vars then Prepend(vars[name], Format(t, vars)) else Err(MissingParameter(name))
  {
    TokenOf(name, t);
  }

  /** One piece of a template: literal text or a `{name}` placeholder. */
  datatype Part = Lit(text: string) | Hole(name: string)

  predicate SoundPart(p: Part)
  {
    match p
    case Lit(text) => Plain(text)
    case Hole(name) => ValidName(name)
  }

  /** Literal pieces hold no braces and placeholders have valid names. */
  predicate Sound(ps: seq<Part>)
  {
    forall i :: 0 <= i < |ps| ==> SoundPart(ps[i])
  }

  function Show(p: Part): string
  {
    match p
    case Lit(text) => text
    case Hole(name) => "{" + name + "}"
  }

  /** The template string the pieces spell. */
  function Render(ps: seq<Part>): string
  {
    if |ps| == 0 then "" else Show(ps[0]) + Render(ps[1..])
  }

  /** The placeholder names, in order. */
  function Holes(ps: seq<Part>): (r: seq<string>)
    ensures forall n :: n in r <==> exists i :: 0 <= i < |ps| && ps[i] == Hole(n)
  {
    if |ps| == 0 then []
    else
      assert forall i :: 1 <= i < |ps| ==> ps[i] == ps[1..][i - 1];
      (if ps[0].Hole? then [ps[0].name] else []) + Holes(ps[1..])
  }

  /** The pieces with each placeholder replaced by its binding. */
  function Fill(ps: seq<Part>, vars: map<string, string>): string
    requires forall n :: n in Holes(ps) ==> n in vars
  {
    if |ps| == 0 then ""
    else (match ps[0] case Lit(text) => text case Hole(name) => vars[name]) + Fill(ps[1..], vars)
  }

  /** On a template spelled by sound pieces, `findall` returns exactly the
      placeholders, the template is well formed, and `format` with every
      placeholder bound substitutes each one in place. */
  lemma {:induction false} RenderScan(ps: seq<Part>, vars: map<string, string>)
    requires Sound(ps)
    ensures FindFields(Render(ps)) == Holes(ps)
    ensures WellFormed(Render(ps))
    ensures (forall n :: n in Holes(ps) ==> n in vars) ==> Format(Render(ps), vars) == Ok(Fill(ps, vars))
  {
    if |ps| > 0 {
      assert Sound(ps[1..]) by {
        forall i | 0 <= i < |ps[1..]| ensures SoundPart(ps[1..][i]) {
          assert ps[1..][i] == ps[i + 1];
        }
      }
      assert SoundPart(ps[0]);
      RenderScan(ps[1..], vars);
      match ps[0]
      case Lit(text) => PlainPrefix(text, Render(ps[1..]), vars);
      case Hole(name) => TokenPrefix(name, Render(ps[1..]), vars);
    }
  }
}

=== FILE: wrappers.dfy ===
/** Failure-carrying result types shared by the model. */
module Wrappers {

  /** A value that may be absent; models Python's `None`. */
  datatype Option<+T> = None | Some(value: T)

  /** The outcome of an operation that can raise: `Err` carries the exception. */
  datatype Result<+T, +E> = Ok(value: T) | Err(error: E)
}
